=== FILE: README.md ===
# gh-deploy-resource-calculator in Dafny

A model of the resource calculator in `main.go`. The calculator reads a
Terraform configuration of Juju applications. From it, it estimates how many
CPU cores, how much memory and how much disk each OpenStack cloud will have
to provide. The model covers everything between the parsed configuration and
the printed report:

- `parseClouds` seeds the per-cloud totals: `DEFAULT`, plus every cloud that a
  `user_name` local names (module `Locals`).
- `getLocalUserNameVarToCloudNameMap` and `parseLocalVarToClouds` map the
  local variables an application may reference to clouds (module `Locals`).
- `parseConstraints` reads a Juju constraint string such as
  `cores=2 mem=8192M root-disk=51200M` (module `Constraints`).
- `parseFlavor` reads an OpenStack flavor name such as `cpu4-ram16-disk200`
  (module `Flavors`).
- `parseRunner` and `parseImageBuilder` give the footprint of one application:
  the charm's machine and the VMs it spawns (module `Applications`).
- `addResourceToClouds` adds to one cloud's total (module `Resources`).
- The loop of `main` classifies each declaration and adds its footprint
  (module `Dispatch`, method `Estimate`), without printing.

Two helper modules model the Go library calls the code relies on:

- `Strings` models `strings.Contains`, `strings.ReplaceAll` and
  `strings.Split` with a one-character separator.
- `Strconv` models `strconv.Atoi`. Its `Show` writes the decimal text of an
  integer; the code never writes numbers, and `Show` serves only to state
  that written constraint strings, flavor names and VM counts read back.

Module `Hcl` gives the shape of the parsed configuration. An attribute value
is text, a nested block, or anything else.

Behaviour of the code worth knowing, all of it modelled as written:

- The code never scales by 1000. A `G` suffix in a constraint makes the
  token fail to parse, so it contributes nothing. Flavor numbers are taken
  as they are.
- An unparsable `virtual-machines` count becomes 0, not 1.
- A runner without `openstack-clouds-yaml` returns four zero values. Its
  already-parsed constraints are dropped, and the empty cloud name `""`
  still receives two zero additions.
- The charm machine is always charged to `DEFAULT`; no model attribute is
  read. There are no default resources for a missing `constraints`
  attribute: the type assertion would panic.
- An image builder's cloud comes from looking up its user-name variable in
  the variable table. A name that is not in the table gives `""`.
- A clouds-yaml username resolves in one step, through the user-name table.
  Failing that, it is used as it is.

Each Go panic in the parsers of the Terraform attributes (a failed type
assertion, `keyval[1]` on a token without `=`) becomes a precondition. The
panics inside `getCloudsYamlUsername` do not; see "## Left out". Each error that the code logs and recovers from is
modelled as the value the code continues with.

## Model

| member | source | states |
|---|---|---|
| Strings.ContainsAtSomePosition | main.go:41 | `strings.Contains(s, sub)` holds exactly when `sub` is the slice of `s` at some position |
| Strings.RemoveAll | main.go:231 | The result is no longer than the input and at least one pattern length shorter when the pattern occurs; it keeps every character that is not in the pattern, and is the input itself when the pattern does not occur |
| Strings.RemoveFirstOccurrence | main.go:231 | The first occurrence of the pattern is deleted, the text before it is kept, and the text after it is treated on its own; with the no-occurrence case this fixes the result of `strings.ReplaceAll(s, pat, "")` on every input |
| Strings.RemoveLeadingMarker | main.go:156 | A leading occurrence of the pattern is deleted and the rest is treated on its own; so `local.` followed by a name free of it gives back the name |
| Strings.Split | main.go:197 | There is at least one part and no part contains the separator; the result is the whole string exactly when the separator is absent |
| Strings.JoinSplit | main.go:197 | Joining the parts of a split with the separator gives back the string |
| Strings.SplitJoin | main.go:228 | Splitting the join of separator-free parts gives back the parts |
| Strings.SplitConcat | main.go:197 | Splitting `a + sep + b` gives the parts of `a` followed by the parts of `b` |
| Strings.ContainsTransitive | main.go:46 | A substring of a substring is a substring |
| Strconv.Atoi | main.go:201 | A text is accepted exactly when it is one or more digits, or a `+` or `-` followed by one or more digits; unsigned text has a non-negative value |
| Strconv.AtoiSignZeros | main.go:201 | A `+` sign reads as no sign, a `-` sign negates, and a leading zero is ignored; with `AtoiShow` this gives the value of every accepted text |
| Strconv.AtoiShow | main.go:159 | `Atoi` reads back the decimal text of every integer |
| Strconv.AtoiRejectsChar | main.go:208 | Text holding a character that is neither a digit nor a sign is rejected |
| Resources.AddToCloud | main.go:261-269 | The cloud's entry exists afterwards and each field has grown by the added amount, starting from zero for a new cloud; no other entry changes and no other key appears |
| Resources.AddToCloudCommutes | main.go:261-269 | Two additions give the same table in either order, to the same cloud or to different ones |
| Resources.FoldAddKeys | main.go:262-264 | After a run of additions, the keys are the old keys plus every cloud that was added to |
| Resources.FoldAddPermutation | main.go:44-50 | Any reordering of a run of additions gives the same totals |
| Constraints.TokenValue | main.go:199-221 | A token adds to a field only when its key is that field's key; a `cores`, `mem` or `root-disk` token with a value adds, to its own field only, what `Atoi` reads from the text after the `=` (cut at the first `M` for `mem` and `root-disk`), or 0 when that fails |
| Constraints.ParseConstraintsConcat | main.go:197-222 | Two constraint strings joined by a blank parse to the sum of their values, so repeated keys accumulate |
| Constraints.ParseConstraintsOrderFree | main.go:197-222 | The order of two groups of clauses does not change the result |
| Constraints.EmptyConstraints | main.go:195-197 | The empty constraint string parses to the zero resource |
| Constraints.IgnoredToken | main.go:198-222 | Appending an unknown key, or a recognised key whose value does not parse, leaves the result unchanged |
| Constraints.CoresClause | main.go:200-206 | `cores=n` counts `n` cores and nothing else |
| Constraints.MegabyteClause | main.go:207-220 | `mem=nM` and `root-disk=nM` count `n` in their own field, unscaled |
| Constraints.GigabyteClauseIgnored | main.go:207-220 | `mem=nG` and `root-disk=nG` contribute nothing |
| Constraints.RepeatedCoresAccumulate | main.go:200-206 | Two `cores` clauses add up instead of the later one winning |
| Constraints.ParseFormat | main.go:195-224 | The constraint string written for any resource parses back to that resource |
| Flavors.SetByLastStep | main.go:229-257 | Handling one more segment keeps each field equal to the value from the last segment holding its marker |
| Flavors.FlavorOf | main.go:227-258 | Each field comes from the last segment holding its marker, with the marker removed and the rest read by `Atoi` (0 on failure); it is 0 when no segment holds the marker |
| Flavors.ParseFlavor | main.go:226-259 | The same last-segment-wins rule, over the segments of the name split at `-` |
| Flavors.TwoMarkersZeroBoth | main.go:230-256 | A segment holding two different markers sets both fields to 0 |
| Flavors.ParseFormatFlavor | main.go:226-259 | `cpuA-ramB-diskC` parses back to `(A, B, C)` for non-negative values, unscaled |
| Locals.ParseClouds | main.go:65-77 | The keys are exactly `DEFAULT` plus every value of a `user_name` variable; every total starts at zero |
| Locals.PickCloud | main.go:127-131 | A cloud is found exactly when some cloud's name occurs in the value, and the one found matches |
| Locals.ResolveBlock | main.go:122-132 | After one block, a variable is mapped exactly when it was mapped before or some cloud matches it in the block; it goes to a matching cloud, and everything else is unchanged |
| Locals.UserNameTable | main.go:119-135 | A variable is mapped exactly when some block gives it a matching cloud, and then to a cloud matched in the last such block |
| Locals.EveryUserNameResolved | main.go:121-131 | Against the clouds that `parseClouds` seeds, every user-name variable resolves, since its own value is a cloud |
| Locals.CloudsYamlEntries | main.go:82-97 | Every clouds-yaml variable is mapped to where the username in its last binding points: through the user-name table, or to the username itself |
| Locals.ParseLocalVarToClouds | main.go:79-102 | The table holds exactly the clouds-yaml and resolved user-name variables; user-name resolutions override clouds-yaml ones; a clouds-yaml variable whose username is a resolved user-name variable goes to the very cloud that variable is mapped to, otherwise to the username itself |
| Applications.Lookup | main.go:157 | A present name gives its own entry of the table, a missing name gives `""` |
| Applications.FootprintClouds | main.go:138-193 | Every footprint of either parser is empty, or charges the deployment to `DEFAULT` and the VMs to a cloud of the table or to `""` |
| Applications.InvalidVmCountCostsNothing | main.go:159-166 | An unparsable VM count makes the runner's VMs cost nothing, while its constraints still count |
| Applications.UnconfiguredRunnerCostsNothing | main.go:149-155 | A runner without clouds-yaml loses its constraints as well |
| Applications.ParseWrittenRunner | main.go:138-168 | A runner written from a deployment size, flavor, VM count and variable reads back as exactly those, charged as described |
| Applications.ParseWrittenBuilder | main.go:171-193 | An image builder written from a size, flavor and variable reads back as exactly those |
| Applications.UnconfiguredBuilderCostsNothing | main.go:180-188 | An image builder missing its build flavor or its user name costs nothing at all, although its constraints were read |
| Dispatch.Classify | main.go:37-53 | A declaration is skipped exactly when it is not a `juju_application`, and is an image builder exactly when `parseImageBuilder` accepts it |
| Dispatch.GithubRunnerIsRunner | main.go:46 | A name containing `github-runner` contains `runner` |
| Dispatch.RunnerByName | main.go:41-46 | A declaration takes the runner branch exactly when it is an application, not an image builder, and its name contains `runner` |
| Dispatch.Contributions | main.go:41-53 | Skipped and unrecognised declarations add nothing; the others add both halves of their parser's footprint |
| Dispatch.TallyKeys | main.go:44-50 | The final table holds the seeded clouds and every cloud a declaration was charged to |
| Dispatch.TallyPermutation | main.go:36-54 | The totals do not depend on the order of the declarations |
| Dispatch.IgnoredDeclaration | main.go:36-53 | Adding a skipped or unrecognised declaration leaves the totals unchanged |
| Dispatch.RejectedApplicationAddsEmptyCloud | main.go:44-50 | A rejected runner or image builder adds the cloud `""` (at zero if new) and changes no other total |
| Dispatch.Estimate | main.go:32-54 | The variable table resolves as above, a clouds-yaml variable naming a resolved user-name variable going to that variable's own cloud. The totals are the seeded table plus every declaration's additions. The clouds reported are `DEFAULT`, the user-name values, and every cloud that was charged |

## Left out

- Reading `main.tf` (`hcl.Parse`, lines 22-30) and every `fmt.Println` call (the report in `main` at lines 38, 43, 48, 52 and 56-62, and the messages at lines 115, 146, 148, 153, 162, 182, 186, 202, 209, 216, 234, 243 and 252): the model starts from the parsed configuration, `Estimate` returns the totals instead of printing them, and each message leaves only the value the code continues with.
- YAML parsing in `getCloudsYamlUsername` (lines 105-117): the username a clouds-yaml document yields is a function parameter, `readUser`. The model removes `local.` from that username itself (line 113). The empty-document case (line 115) is inside `readUser`. So are the panics of `getCloudsYamlUsername`: the explicit one on invalid YAML (line 108) and the failed type assertions at lines 110, 112 and 113. `readUser` is total and `Estimate` has no precondition about it, so on such a document the model takes some username and the run continues, where the code aborts the whole run. Line 111 takes the first entry of the document's `clouds` map in Go's unspecified map order, so a document listing several clouds may give different usernames on different reads; as a function, `readUser` gives one username per document text, so two variables holding the same multi-cloud text always resolve alike here.
- Panics: each failed type assertion on a Terraform attribute and each `keyval[1]` on a token without `=` is a precondition (`RunnerTyped`, `BuilderTyped`, `UserNamesTyped`, `CloudsYamlTyped`, `WellFormed`). `Dispatch.Contributions` gives a declaration that would panic no additions, and `Estimate` requires that no declaration panics.
- Go map iteration order: the choice it makes in `getLocalUserNameVarToCloudNameMap` is a nondeterministic pick, and the contracts promise only "some matching cloud". The choice of the first `clouds` entry in `getCloudsYamlUsername` (line 111) is fixed per document text, as said above. In the remaining loops over maps the order does not change the result.
- Strconv.Atoi: does not model the 64-bit range check, or the wrap-around of the `+=` and `*=` on `int` fields, because integers are unbounded here.
- Strings.Split: only one-character separators, which is all the code uses.
- Constraints.ParseConstraints carries no contract of its own; its meaning is stated by the lemmas about it (concatenation, ignored tokens, round trip).

=== FILE: applications.dfy ===
/**
  `parseRunner` and `parseImageBuilder`: what one `juju_application`
  declaration costs.  Each returns a `Footprint` — the charm's own machine,
  always charged to `DEFAULT`, and the virtual machines it spawns, charged to
  the cloud its configuration points at — or four zero values when the
  declaration is not of the expected sort or lacks a configuration entry.
 */
module Applications {
  import opened Strings
  import opened Strconv
  import opened Resources
  import opened Constraints
  import opened Flavors
  import opened Hcl
  import opened Locals

  const ApplicationKind := "juju_application"
  const ImageBuilderMarker := "image-builder"
  const GithubRunnerMarker := "github-runner"
  const RunnerMarker := "runner"

  const ConstraintsKey := "constraints"
  const ConfigKey := "config"
  const CloudsYamlKey := "openstack-clouds-yaml"
  const FlavorKey := "openstack-flavor"
  const VmCountKey := "virtual-machines"
  const BuildFlavorKey := "experimental-external-build-flavor"
  const UserNameKey := "openstack-user-name"

  /** The four results: deploy cloud and resource, VM cloud and resource. */
  datatype Footprint = Footprint(deployCloud: CloudName, deploy: Resource, vmCloud: CloudName, vm: Resource)

  /** The four zero values returned when a declaration is rejected. */
  const NoFootprint := Footprint("", Zero, "", Zero)

  /** Reading a Go map: the entry, or the empty string when there is none. */
  function Lookup(table: map<LocalCloudVarName, CloudName>, name: LocalCloudVarName): (c: CloudName)
    ensures c == "" || c in table.Values
    ensures name in table ==> c == table[name]
    ensures name !in table ==> c == ""
  {
    if name in table then table[name] else ""
  }

  /**
    The attribute reads both parsers make before looking at the configuration:
    `constraints` is text that `parseConstraints` can read, and `config` is a block.
   */
  predicate DeployTyped(d: Declaration) {
    && HasText(d.attributes, ConstraintsKey)
    && WellFormed(d.attributes[ConstraintsKey].text)
    && ConfigKey in d.attributes
    && d.attributes[ConfigKey].Block?
  }

  function ConstraintsOf(d: Declaration): string
    requires DeployTyped(d)
  {
    d.attributes[ConstraintsKey].text
  }

  function ConfigOf(d: Declaration): map<string, Value>
    requires DeployTyped(d)
  {
    d.attributes[ConfigKey].entries
  }

  /** A declaration `parseRunner` reads past its two guards. */
  predicate IsRunnerCandidate(d: Declaration) {
    d.kind == ApplicationKind && !Contains(d.name, ImageBuilderMarker)
  }

  /** A runner candidate whose configuration names a clouds-yaml variable. */
  predicate RunnerConfigured(d: Declaration)
    requires DeployTyped(d)
  {
    IsRunnerCandidate(d) && CloudsYamlKey in ConfigOf(d)
  }

  /** `parseRunner` does not panic: every attribute it asserts has the asserted type. */
  predicate RunnerTyped(d: Declaration) {
    IsRunnerCandidate(d) ==>
      && DeployTyped(d)
      && (CloudsYamlKey in ConfigOf(d) ==>
            HasText(ConfigOf(d), CloudsYamlKey) && HasText(ConfigOf(d), FlavorKey) && HasText(ConfigOf(d), VmCountKey))
  }

  /**
    `parseRunner`: a configured runner charges its constraints to `DEFAULT`
    and its flavor, times its VM count (0 when the count does not parse), to
    the cloud the clouds-yaml variable resolves to; anything else costs nothing.
   */
  function ParseRunner(d: Declaration, table: map<LocalCloudVarName, CloudName>): (f: Footprint)
    requires RunnerTyped(d)
    ensures !IsRunnerCandidate(d) ==> f == NoFootprint
    ensures IsRunnerCandidate(d) && !RunnerConfigured(d) ==> f == NoFootprint
    ensures IsRunnerCandidate(d) && RunnerConfigured(d) ==>
              && f.deployCloud == DefaultCloud
              && f.deploy == ParseConstraints(ConstraintsOf(d))
              && f.vmCloud == Lookup(table, RemoveAll(ConfigOf(d)[CloudsYamlKey].text, LocalPrefix))
              && f.vm == Scale(ParseFlavor(ConfigOf(d)[FlavorKey].text), AtoiOrZero(ConfigOf(d)[VmCountKey].text))
    ensures f.vmCloud == "" || f.vmCloud in table.Values
  {
    if d.kind != ApplicationKind then NoFootprint
    else if Contains(d.name, ImageBuilderMarker) then NoFootprint
    else
      var deploy := ParseConstraints(ConstraintsOf(d));
      var config := ConfigOf(d);
      if CloudsYamlKey !in config then NoFootprint
      else
        var cloud := Lookup(table, RemoveAll(config[CloudsYamlKey].text, LocalPrefix));
        var vm := ParseFlavor(config[FlavorKey].text);
        var count := AtoiOrZero(config[VmCountKey].text);
        Footprint(DefaultCloud, deploy, cloud, Scale(vm, count))
  }

  /** A declaration `parseImageBuilder` reads past its two guards. */
  predicate IsBuilderCandidate(d: Declaration) {
    d.kind == ApplicationKind && Contains(d.name, ImageBuilderMarker)
  }

  /** An image builder whose configuration names both a build flavor and a user-name variable. */
  predicate BuilderConfigured(d: Declaration)
    requires DeployTyped(d)
  {
    IsBuilderCandidate(d) && BuildFlavorKey in ConfigOf(d) && UserNameKey in ConfigOf(d)
  }

  /** `parseImageBuilder` does not panic. */
  predicate BuilderTyped(d: Declaration) {
    IsBuilderCandidate(d) ==>
      && DeployTyped(d)
      && (BuildFlavorKey in ConfigOf(d) && UserNameKey in ConfigOf(d) ==>
            HasText(ConfigOf(d), BuildFlavorKey) && HasText(ConfigOf(d), UserNameKey))
  }

  /**
    `parseImageBuilder`: a configured image builder charges its constraints to
    `DEFAULT` and one build VM of its flavor to the cloud its user-name
    variable resolves to; anything else costs nothing.
   */
  function ParseImageBuilder(d: Declaration, table: map<LocalCloudVarName, CloudName>): (f: Footprint)
    requires BuilderTyped(d)
    ensures !IsBuilderCandidate(d) ==> f == NoFootprint
    ensures IsBuilderCandidate(d) && !BuilderConfigured(d) ==> f == NoFootprint
    ensures IsBuilderCandidate(d) && BuilderConfigured(d) ==>
              && f.deployCloud == DefaultCloud
              && f.deploy == ParseConstraints(ConstraintsOf(d))
              && f.vmCloud == Lookup(table, RemoveAll(ConfigOf(d)[UserNameKey].text, LocalPrefix))
              && f.vm == ParseFlavor(ConfigOf(d)[BuildFlavorKey].text)
    ensures f.vmCloud == "" || f.vmCloud in table.Values
  {
    if d.kind != ApplicationKind then NoFootprint
    else if !Contains(d.name, ImageBuilderMarker) then NoFootprint
    else
      var deploy := ParseConstraints(ConstraintsOf(d));
      var config := ConfigOf(d);
      if BuildFlavorKey !in config then NoFootprint
      else if UserNameKey !in config then NoFootprint
      else
        var cloud := Lookup(table, RemoveAll(config[UserNameKey].text, LocalPrefix));
        Footprint(DefaultCloud, deploy, cloud, ParseFlavor(config[BuildFlavorKey].text))
  }

  /** A VM count that does not parse makes the runner's VMs cost nothing, whatever its flavor. */
  lemma InvalidVmCountCostsNothing(d: Declaration, table: map<LocalCloudVarName, CloudName>)
    requires RunnerTyped(d) && IsRunnerCandidate(d) && RunnerConfigured(d)
    requires Atoi(ConfigOf(d)[VmCountKey].text) == None
    ensures ParseRunner(d, table).vm == Zero
    ensures ParseRunner(d, table).deploy == ParseConstraints(ConstraintsOf(d))
  {
  }

  /**
    A runner without a clouds-yaml entry loses its charm deployment too,
    although its constraints were read.
   */
  lemma UnconfiguredRunnerCostsNothing(d: Declaration, table: map<LocalCloudVarName, CloudName>)
    requires RunnerTyped(d) && IsRunnerCandidate(d) && !RunnerConfigured(d)
    ensures ParseRunner(d, table).deploy == Zero && ParseRunner(d, table).vm == Zero
  {
  }

  /**
    An image builder without a build flavor or without a user-name entry
    costs nothing at all, although its constraints were read.
   */
  lemma UnconfiguredBuilderCostsNothing(d: Declaration, table: map<LocalCloudVarName, CloudName>)
    requires BuilderTyped(d) && IsBuilderCandidate(d)
    requires BuildFlavorKey !in ConfigOf(d) || UserNameKey !in ConfigOf(d)
    ensures ParseImageBuilder(d, table) == NoFootprint
  {
  }

  /**
    Whatever the declaration, a footprint is either empty or charges its
    deployment to `DEFAULT` and its VMs to a cloud of the table or to `""`.
   */
  lemma FootprintClouds(d: Declaration, table: map<LocalCloudVarName, CloudName>)
    requires RunnerTyped(d) && BuilderTyped(d)
    ensures var f := ParseRunner(d, table);
            f == NoFootprint || (f.deployCloud == DefaultCloud && (f.vmCloud == "" || f.vmCloud in table.Values))
    ensures var f := ParseImageBuilder(d, table);
            f == NoFootprint || (f.deployCloud == DefaultCloud && (f.vmCloud == "" || f.vmCloud in table.Values))
  {
  }

  /** The runner declaration an operator would write. */
  function RunnerDeclaration(name: string, deploy: Resource, flavor: Resource, vms: int, cloudsYamlVar: string): Declaration {
    Declaration(ApplicationKind, name, map[
      ConstraintsKey := Text(Format(deploy)),
      ConfigKey := Block(map[
        CloudsYamlKey := Text(LocalPrefix + cloudsYamlVar),
        FlavorKey := Text(FormatFlavor(flavor)),
        VmCountKey := Text(Show(vms))])])
  }

  /**
    Reading a written runner back: the constraints go to `DEFAULT`, and the
    flavor times the VM count to the cloud its variable is mapped to.
   */
  lemma ParseWrittenRunner(name: string, deploy: Resource, flavor: Resource, vms: int, cloudsYamlVar: string,
                           table: map<LocalCloudVarName, CloudName>)
    requires !Contains(name, ImageBuilderMarker)
    requires flavor.cpu >= 0 && flavor.mem >= 0 && flavor.disk >= 0
    requires !Contains(cloudsYamlVar, LocalPrefix)
    ensures RunnerTyped(RunnerDeclaration(name, deploy, flavor, vms, cloudsYamlVar))
    ensures ParseRunner(RunnerDeclaration(name, deploy, flavor, vms, cloudsYamlVar), table) ==
            Footprint(DefaultCloud, deploy, Lookup(table, cloudsYamlVar), Scale(flavor, vms))
  {
    var d := RunnerDeclaration(name, deploy, flavor, vms, cloudsYamlVar);
    ParseFormat(deploy);
    assert DeployTyped(d) && ConstraintsOf(d) == Format(deploy);
    var config := ConfigOf(d);
    assert config[CloudsYamlKey].text == LocalPrefix + cloudsYamlVar;
    assert config[FlavorKey].text == FormatFlavor(flavor);
    assert config[VmCountKey].text == Show(vms);
    ParseFormatFlavor(flavor);
    AtoiShow(vms);
    RemoveLeadingMarker(LocalPrefix, cloudsYamlVar);
  }

  /** The image-builder declaration an operator would write. */
  function BuilderDeclaration(name: string, deploy: Resource, flavor: Resource, userNameVar: string): Declaration {
    Declaration(ApplicationKind, name, map[
      ConstraintsKey := Text(Format(deploy)),
      ConfigKey := Block(map[
        BuildFlavorKey := Text(FormatFlavor(flavor)),
        UserNameKey := Text(LocalPrefix + userNameVar)])])
  }

  /** Reading a written image builder back: one VM of its flavor, charged through its user-name variable. */
  lemma ParseWrittenBuilder(name: string, deploy: Resource, flavor: Resource, userNameVar: string,
                            table: map<LocalCloudVarName, CloudName>)
    requires Contains(name, ImageBuilderMarker)
    requires flavor.cpu >= 0 && flavor.mem >= 0 && flavor.disk >= 0
    requires !Contains(userNameVar, LocalPrefix)
    ensures BuilderTyped(BuilderDeclaration(name, deploy, flavor, userNameVar))
    ensures ParseImageBuilder(BuilderDeclaration(name, deploy, flavor, userNameVar), table) ==
            Footprint(DefaultCloud, deploy, Lookup(table, userNameVar), flavor)
  {
    var d := BuilderDeclaration(name, deploy, flavor, userNameVar);
    ParseFormat(deploy);
    assert DeployTyped(d) && ConstraintsOf(d) == Format(deploy);
    var config := ConfigOf(d);
    assert config[BuildFlavorKey].text == FormatFlavor(flavor);
    assert config[UserNameKey].text == LocalPrefix + userNameVar;
    ParseFormatFlavor(flavor);
    RemoveLeadingMarker(LocalPrefix, userNameVar);
  }
}

=== FILE: constraints.dfy ===
/**
  `parseConstraints`: a Juju constraint string such as
  `"cores=2 mem=8192M root-disk=51200M"` read into a `Resource`.
  Tokens are separated by single blanks and read as `key=value`; only
  `cores`, `mem` and `root-disk` are recognised and each recognised token adds
  its value to its field.  `mem` and `root-disk` values are cut at the first
  `M`; no other unit is understood, so a `G` value fails to parse and
  contributes nothing.
 */
module Constraints {
  import opened Strings
  import opened Strconv
  import opened Resources

  predicate IsRecognisedKey(k: string) {
    k == "cores" || k == "mem" || k == "root-disk"
  }

  /** The text before the first `=` of a token (the whole token when it has none). */
  function Key(token: string): string {
    Split(token, '=')[0]
  }

  /**
    `parseConstraints` reads `keyval[1]` for every recognised key, which
    panics when the token has no `=`, i.e. when the token is a bare
    recognised key.
   */
  predicate WellFormed(s: string) {
    NoBareKey(Split(s, ' '))
  }

  /** No token of the list is a bare recognised key. */
  predicate NoBareKey(ts: seq<string>) {
    forall t :: t in ts ==> !IsRecognisedKey(t)
  }

  /**
    The text handed to `Atoi` for a token with a value: the part after the
    first `=` (up to any second one), cut at the first `M` unless the key is
    `cores`.
   */
  function NumberText(token: string): string
    requires '=' in token
  {
    var kv := Split(token, '=');
    if kv[0] == "cores" then kv[1] else Split(kv[1], 'M')[0]
  }

  /**
    What one token adds to the total: its value in its key's field, or
    nothing.  A bare recognised key, which `parseConstraints` cannot read,
    is excluded by `WellFormed` and adds nothing here.
   */
  function TokenValue(token: string): (r: Resource)
    ensures r.cpu != 0 ==> Key(token) == "cores"
    ensures r.mem != 0 ==> Key(token) == "mem"
    ensures r.disk != 0 ==> Key(token) == "root-disk"
    ensures Key(token) == "cores" && '=' in token ==> r == Resource(AtoiOrZero(NumberText(token)), 0, 0)
    ensures Key(token) == "mem" && '=' in token ==> r == Resource(0, AtoiOrZero(NumberText(token)), 0)
    ensures Key(token) == "root-disk" && '=' in token ==> r == Resource(0, 0, AtoiOrZero(NumberText(token)))
  {
    var k := Key(token);
    if !IsRecognisedKey(k) || '=' !in token then Zero
    else
      match Atoi(NumberText(token))
      case None => Zero
      case Some(v) =>
        if k == "cores" then Resource(v, 0, 0)
        else if k == "mem" then Resource(0, v, 0)
        else Resource(0, 0, v)
  }

  /**
    The running total after the tokens, each worth `value`, added in order
    from the zero value.
   */
  function SumTokens(value: string -> Resource, ts: seq<string>): Resource
    decreases |ts|
  {
    if ts == [] then Zero
    else Add(SumTokens(value, ts[..|ts| - 1]), value(ts[|ts| - 1]))
  }

  /** `parseConstraints(s)`. */
  function ParseConstraints(s: string): (r: Resource)
    requires WellFormed(s)
  {
    SumTokens(TokenValue, Split(s, ' '))
  }

  /** Appending one token adds its value to the total. */
  lemma SumTokensSnoc(value: string -> Resource, ts: seq<string>, t: string)
    ensures SumTokens(value, ts + [t]) == Add(SumTokens(value, ts), value(t))
  {
    assert (ts + [t])[..|ts|] == ts;
  }

  /** A lone token is worth its value. */
  lemma SumTokensSingle(value: string -> Resource, t: string)
    ensures SumTokens(value, [t]) == value(t)
  {
    assert [t][..0] == [];
  }

  /** The total of two token lists laid end to end is the sum of their totals. */
  lemma {:induction false} SumTokensConcat(value: string -> Resource, p: seq<string>, q: seq<string>)
    ensures SumTokens(value, p + q) == Add(SumTokens(value, p), SumTokens(value, q))
    decreases |q|
  {
    if q == [] {
      assert p + q == p;
    } else {
      var q', last := q[..|q| - 1], q[|q| - 1];
      assert q == q' + [last];
      assert p + q == (p + q') + [last];
      SumTokensConcat(value, p, q');
      SumTokensSnoc(value, p + q', last);
      SumTokensSnoc(value, q', last);
    }
  }

  /** Two token lists without a bare key laid end to end have none either. */
  lemma NoBareKeyConcat(p: seq<string>, q: seq<string>)
    requires NoBareKey(p) && NoBareKey(q)
    ensures NoBareKey(p + q)
  {
  }

  /**
    Constraint strings joined by a blank add up: repeated keys accumulate
    instead of overwriting, whichever side they come from.
   */
  lemma ParseConstraintsConcat(a: string, b: string)
    requires WellFormed(a) && WellFormed(b)
    ensures WellFormed(a + " " + b)
    ensures ParseConstraints(a + " " + b) == Add(ParseConstraints(a), ParseConstraints(b))
  {
    SplitConcat(a, b, ' ');
    assert a + " " + b == a + [' '] + b;
    NoBareKeyConcat(Split(a, ' '), Split(b, ' '));
    SumTokensConcat(TokenValue, Split(a, ' '), Split(b, ' '));
  }

  /** The order of the clauses of a constraint string does not matter. */
  lemma ParseConstraintsOrderFree(a: string, b: string)
    requires WellFormed(a) && WellFormed(b)
    ensures WellFormed(a + " " + b) && WellFormed(b + " " + a)
    ensures ParseConstraints(a + " " + b) == ParseConstraints(b + " " + a)
  {
    ParseConstraintsConcat(a, b);
    ParseConstraintsConcat(b, a);
  }

  /** A single token adds exactly its own value. */
  lemma SingleToken(t: string)
    requires ' ' !in t && !IsRecognisedKey(t)
    ensures WellFormed(t)
    ensures ParseConstraints(t) == TokenValue(t)
  {
    assert Split(t, ' ') == [t];
    SumTokensSingle(TokenValue, t);
  }

  /** The empty constraint string is a single empty token and leaves the zero value. */
  lemma EmptyConstraints()
    ensures WellFormed("") && ParseConstraints("") == Zero
  {
    SingleToken("");
  }

  /**
    A token that adds nothing (an unknown key, or a recognised key whose value
    does not parse) may be appended without changing the result.
   */
  lemma IgnoredToken(a: string, t: string)
    requires WellFormed(a)
    requires ' ' !in t && !IsRecognisedKey(t)
    requires !IsRecognisedKey(Key(t)) || ('=' in t && Atoi(NumberText(t)) == None)
    ensures WellFormed(a + " " + t)
    ensures ParseConstraints(a + " " + t) == ParseConstraints(a)
  {
    IgnoredTokenValue(t);
    ZeroTokenAppended(a, t);
  }

  /** Appending a token whose value is zero leaves the total as it was. */
  lemma ZeroTokenAppended(a: string, t: string)
    requires WellFormed(a)
    requires ' ' !in t && !IsRecognisedKey(t)
    requires TokenValue(t) == Zero
    ensures WellFormed(a + " " + t)
    ensures ParseConstraints(a + " " + t) == ParseConstraints(a)
  {
    SingleToken(t);
    ParseConstraintsConcat(a, t);
  }

  /** An unknown key, or a recognised key whose number does not parse, adds nothing. */
  lemma IgnoredTokenValue(t: string)
    requires !IsRecognisedKey(Key(t)) || ('=' in t && Atoi(NumberText(t)) == None)
    ensures TokenValue(t) == Zero
  {
  }

  /** A clause written from a key, an integer and a unit suffix. */
  function Clause(key: string, n: int, unit: string): string {
    key + "=" + Show(n) + unit
  }

  /** A written clause is a single token, not a bare key, and splits at its `=`. */
  lemma ClauseShape(key: string, n: int, unit: string)
    requires ' ' !in key && ' ' !in unit && '=' !in key && '=' !in unit
    ensures ' ' !in Clause(key, n, unit)
    ensures !IsRecognisedKey(Clause(key, n, unit))
    ensures '=' in Clause(key, n, unit)
    ensures Split(Clause(key, n, unit), '=') == [key, Show(n) + unit]
  {
    ShowChars(n);
    var v := Show(n) + unit;
    var t := Clause(key, n, unit);
    assert t == key + "=" + v;
    assert t[|key|] == '=';
    if IsRecognisedKey(t) {
      RecognisedKeyShape(t);
    }
    assert Join([key, v], '=') == t;
    SplitJoin([key, v], '=');
  }

  /** The recognised keys hold neither a blank nor an `=`. */
  lemma RecognisedKeyShape(k: string)
    requires IsRecognisedKey(k)
    ensures ' ' !in k && '=' !in k
  {
  }

  /** The digits of an integer followed by an `M` and anything without one. */
  lemma SplitAtUnit(n: int, rest: string)
    requires 'M' !in rest
    ensures Split(Show(n) + "M" + rest, 'M')[0] == Show(n)
  {
    ShowChars(n);
    SplitConcat(Show(n), rest, 'M');
    assert Show(n) + "M" + rest == Show(n) + ['M'] + rest;
  }

  /** A `cores` clause counts its integer. */
  lemma CoresClause(n: int)
    ensures ' ' !in Clause("cores", n, "") && !IsRecognisedKey(Clause("cores", n, ""))
    ensures TokenValue(Clause("cores", n, "")) == Resource(n, 0, 0)
  {
    ClauseShape("cores", n, "");
    assert Show(n) + "" == Show(n);
    AtoiShow(n);
  }

  /** A `mem` or `root-disk` clause with an `M` suffix counts its integer, unscaled. */
  lemma MegabyteClause(key: string, n: int)
    requires key == "mem" || key == "root-disk"
    ensures ' ' !in Clause(key, n, "M") && !IsRecognisedKey(Clause(key, n, "M"))
    ensures TokenValue(Clause(key, n, "M")) ==
            if key == "mem" then Resource(0, n, 0) else Resource(0, 0, n)
  {
    ClauseShape(key, n, "M");
    SplitAtUnit(n, "");
    assert Show(n) + "M" + "" == Show(n) + "M";
    AtoiShow(n);
  }

  /** A `G` suffix is not understood: the clause contributes nothing at all. */
  lemma GigabyteClauseIgnored(key: string, n: int)
    requires key == "mem" || key == "root-disk"
    ensures !IsRecognisedKey(Clause(key, n, "G"))
    ensures TokenValue(Clause(key, n, "G")) == Zero
  {
    ClauseShape(key, n, "G");
    ShowChars(n);
    var v := Show(n) + "G";
    assert v[|v| - 1] == 'G';
    AtoiRejectsChar(v, 'G');
  }

  /** Two `cores` clauses add up rather than the later one winning. */
  lemma RepeatedCoresAccumulate(x: int, y: int)
    ensures WellFormed(Clause("cores", x, "") + " " + Clause("cores", y, ""))
    ensures ParseConstraints(Clause("cores", x, "") + " " + Clause("cores", y, "")) == Resource(x + y, 0, 0)
  {
    var a, b := Clause("cores", x, ""), Clause("cores", y, "");
    ClauseShape("cores", x, "");
    ClauseShape("cores", y, "");
    SingleToken(a);
    SingleToken(b);
    CoresClause(x);
    CoresClause(y);
    ParseConstraintsConcat(a, b);
  }

  /** The constraint string a Juju deployment would write for a resource. */
  function Format(r: Resource): string {
    Clause("cores", r.cpu, "") + " " + Clause("mem", r.mem, "M") + " " + Clause("root-disk", r.disk, "M")
  }

  /** Three single-token clauses joined by blanks add up their values. */
  lemma ThreeTokens(a: string, b: string, c: string)
    requires ' ' !in a && !IsRecognisedKey(a)
    requires ' ' !in b && !IsRecognisedKey(b)
    requires ' ' !in c && !IsRecognisedKey(c)
    ensures WellFormed(a + " " + b + " " + c)
    ensures ParseConstraints(a + " " + b + " " + c) == Add(Add(TokenValue(a), TokenValue(b)), TokenValue(c))
  {
    SingleToken(a);
    SingleToken(b);
    SingleToken(c);
    ParseConstraintsConcat(a, b);
    ParseConstraintsConcat(a + " " + b, c);
  }

  /** The three clauses of a written constraint string, each read on its own. */
  lemma FormatClauses(r: Resource)
    ensures ' ' !in Clause("cores", r.cpu, "") && !IsRecognisedKey(Clause("cores", r.cpu, ""))
    ensures ' ' !in Clause("mem", r.mem, "M") && !IsRecognisedKey(Clause("mem", r.mem, "M"))
    ensures ' ' !in Clause("root-disk", r.disk, "M") && !IsRecognisedKey(Clause("root-disk", r.disk, "M"))
    ensures Add(Add(TokenValue(Clause("cores", r.cpu, "")), TokenValue(Clause("mem", r.mem, "M"))),
                TokenValue(Clause("root-disk", r.disk, "M"))) == r
  {
    var a, b, c := Clause("cores", r.cpu, ""), Clause("mem", r.mem, "M"), Clause("root-disk", r.disk, "M");
    CoresClause(r.cpu);
    MegabyteClause("mem", r.mem);
    MegabyteClause("root-disk", r.disk);
    var va, vb, vc := TokenValue(a), TokenValue(b), TokenValue(c);
    assert va == Resource(r.cpu, 0, 0);
    assert vb == Resource(0, r.mem, 0);
    assert vc == Resource(0, 0, r.disk);
    AddParts(r, va, vb, vc);
  }

  /** The three one-field resources of a resource add back up to it. */
  lemma AddParts(r: Resource, va: Resource, vb: Resource, vc: Resource)
    requires va == Resource(r.cpu, 0, 0) && vb == Resource(0, r.mem, 0) && vc == Resource(0, 0, r.disk)
    ensures Add(Add(va, vb), vc) == r
  {
  }

  /** Parsing the written constraints gives the resource back. */
  lemma ParseFormat(r: Resource)
    ensures WellFormed(Format(r))
    ensures ParseConstraints(Format(r)) == r
  {
    FormatClauses(r);
    ThreeTokens(Clause("cores", r.cpu, ""), Clause("mem", r.mem, "M"), Clause("root-disk", r.disk, "M"));
  }
}

=== FILE: dispatch.dfy ===
/**
  The loop of `main` over the declared resources, without the printing:
  each declaration is classified by its type and name, handed to the parser
  for its sort, and both halves of the footprint it returns are added to the
  per-cloud totals that `parseClouds` seeded.
 */
module Dispatch {
  import opened Strings
  import opened Resources
  import opened Hcl
  import opened Locals
  import opened Applications

  /** How `main` treats a declaration. */
  datatype Kind = Skipped | ImageBuilder | Runner | Unrecognised

  /**
    The branches of the loop body: not a `juju_application`, an image
    builder, a runner, or an application whose name says neither.
   */
  function Classify(d: Declaration): (k: Kind)
    ensures k == Skipped <==> d.kind != ApplicationKind
    ensures k == ImageBuilder <==> IsBuilderCandidate(d)
  {
    if d.kind != ApplicationKind then Skipped
    else if Contains(d.name, ImageBuilderMarker) then ImageBuilder
    else if Contains(d.name, GithubRunnerMarker) || Contains(d.name, RunnerMarker) then Runner
    else Unrecognised
  }

  /** The `github-runner` test adds nothing: such a name also contains `runner`. */
  lemma GithubRunnerIsRunner(name: string)
    requires Contains(name, GithubRunnerMarker)
    ensures Contains(name, RunnerMarker)
  {
    ContainsSelf(RunnerMarker);
    assert GithubRunnerMarker == "github-" + RunnerMarker;
    ContainsInSuffix("github-", RunnerMarker, RunnerMarker);
    ContainsTransitive(name, GithubRunnerMarker, RunnerMarker);
  }

  /** An application is taken for a runner exactly when it is no image builder and its name contains `runner`. */
  lemma RunnerByName(d: Declaration)
    ensures Classify(d) == Runner <==> IsRunnerCandidate(d) && Contains(d.name, RunnerMarker)
  {
    if Contains(d.name, GithubRunnerMarker) {
      GithubRunnerIsRunner(d.name);
    }
  }

  /** `main` does not panic on this declaration. */
  predicate Readable(d: Declaration) {
    match Classify(d)
    case ImageBuilder => BuilderTyped(d)
    case Runner => RunnerTyped(d)
    case _ => true
  }

  /** The two `addResourceToClouds` calls for a footprint. */
  function Charges(f: Footprint): seq<Contribution> {
    [Contribution(f.deployCloud, f.deploy), Contribution(f.vmCloud, f.vm)]
  }

  /**
    What one declaration adds to the totals.  A declaration that would make
    `main` panic (one that is not `Readable`) is outside the model; here it
    adds nothing.
   */
  function Contributions(d: Declaration, table: map<LocalCloudVarName, CloudName>): (xs: seq<Contribution>)
    ensures Readable(d) ==> (xs == [] <==> Classify(d) == Skipped || Classify(d) == Unrecognised)
    ensures Readable(d) && Classify(d) == ImageBuilder ==> xs == Charges(ParseImageBuilder(d, table))
    ensures Readable(d) && Classify(d) == Runner ==> xs == Charges(ParseRunner(d, table))
  {
    if !Readable(d) then []
    else
      match Classify(d)
      case ImageBuilder => Charges(ParseImageBuilder(d, table))
      case Runner => Charges(ParseRunner(d, table))
      case _ => []
  }

  /** Every declaration of the list is readable. */
  predicate AllReadable(ds: seq<Declaration>) {
    forall i :: 0 <= i < |ds| ==> Readable(ds[i])
  }

  /** The additions of each element of a list, in order. */
  function Collect<T>(each: T -> seq<Contribution>, ds: seq<T>): seq<Contribution>
    decreases |ds|
  {
    if ds == [] then []
    else Collect(each, ds[..|ds| - 1]) + each(ds[|ds| - 1])
  }

  /** The additions of a list of declarations, in order. */
  function AllContributions(ds: seq<Declaration>, table: map<LocalCloudVarName, CloudName>): seq<Contribution> {
    Collect(d => Contributions(d, table), ds)
  }

  /** One more element: its additions come last. */
  lemma CollectSnoc<T>(each: T -> seq<Contribution>, ds: seq<T>, d: T)
    ensures Collect(each, ds + [d]) == Collect(each, ds) + each(d)
  {
    assert (ds + [d])[..|ds|] == ds;
  }

  /** The additions of two lists laid end to end. */
  lemma {:induction false} CollectConcat<T>(each: T -> seq<Contribution>, ds: seq<T>, es: seq<T>)
    ensures Collect(each, ds + es) == Collect(each, ds) + Collect(each, es)
    decreases |es|
  {
    if es == [] {
      assert ds + es == ds;
    } else {
      var es', e := es[..|es| - 1], es[|es| - 1];
      assert es == es' + [e];
      assert ds + es == (ds + es') + [e];
      CollectConcat(each, ds, es');
      CollectSnoc(each, ds + es', e);
      CollectSnoc(each, es', e);
    }
  }

  /** The additions of a list are those of the list without one element, plus that element's. */
  lemma CollectRemoveAt<T>(each: T -> seq<Contribution>, es: seq<T>, k: nat)
    requires k < |es|
    ensures multiset(Collect(each, es)) == multiset(Collect(each, es[..k] + es[k + 1..])) + multiset(each(es[k]))
  {
    var front, x, back := es[..k], es[k], es[k + 1..];
    assert es == (front + [x]) + back;
    CollectConcat(each, front + [x], back);
    CollectSnoc(each, front, x);
    CollectConcat(each, front, back);
    var a, b := Collect(each, front), Collect(each, back);
    assert Collect(each, es) == (a + each(x)) + b;
    assert multiset((a + each(x)) + b) == multiset(a) + multiset(each(x)) + multiset(b);
    assert multiset(a + b) == multiset(a) + multiset(b);
  }

  /** Reordering a list reorders its additions. */
  lemma {:induction false} CollectPermutation<T>(each: T -> seq<Contribution>, ds: seq<T>, es: seq<T>)
    requires multiset(ds) == multiset(es)
    ensures multiset(Collect(each, ds)) == multiset(Collect(each, es))
    decreases |ds|
  {
    if ds == [] {
      assert |es| == |multiset(es)| == 0;
    } else {
      var x := ds[|ds| - 1];
      assert x in multiset(es);
      var k :| 0 <= k < |es| && es[k] == x;
      RemoveLastMatching(ds, es, k);
      CollectPermutation(each, ds[..|ds| - 1], es[..k] + es[k + 1..]);
      CollectRemoveAt(each, es, k);
      CollectLast(each, ds);
    }
  }

  /** Removing the same element from two permutations of each other leaves permutations. */
  lemma RemoveLastMatching<T>(ds: seq<T>, es: seq<T>, k: nat)
    requires multiset(ds) == multiset(es)
    requires ds != [] && k < |es| && es[k] == ds[|ds| - 1]
    ensures multiset(ds[..|ds| - 1]) == multiset(es[..k] + es[k + 1..])
  {
    var n := |ds| - 1;
    MultisetRemoveAt(ds, n);
    MultisetRemoveAt(es, k);
    assert ds[..n] + ds[n + 1..] == ds[..n];
  }

  /** The additions of a non-empty list: those of all but its last element, then the last's. */
  lemma CollectLast<T>(each: T -> seq<Contribution>, ds: seq<T>)
    requires ds != []
    ensures multiset(Collect(each, ds)) == multiset(Collect(each, ds[..|ds| - 1])) + multiset(each(ds[|ds| - 1]))
  {
  }

  /** The totals after the loop of `main`, from the seeded table. */
  function Tally(seed: map<CloudName, Resource>, ds: seq<Declaration>, table: map<LocalCloudVarName, CloudName>)
    : map<CloudName, Resource>
  {
    FoldAdd(seed, AllContributions(ds, table))
  }

  /** The totals hold the seeded clouds and every cloud some declaration was charged to. */
  lemma TallyKeys(seed: map<CloudName, Resource>, ds: seq<Declaration>, table: map<LocalCloudVarName, CloudName>)
    ensures Tally(seed, ds, table).Keys == seed.Keys + CloudsOf(AllContributions(ds, table))
  {
    FoldAddKeys(seed, AllContributions(ds, table));
  }

  /** One more declaration: its additions are performed on the totals so far. */
  lemma TallySnoc(seed: map<CloudName, Resource>, ds: seq<Declaration>, d: Declaration,
                  table: map<LocalCloudVarName, CloudName>)
    ensures Tally(seed, ds + [d], table) == FoldAdd(Tally(seed, ds, table), Contributions(d, table))
  {
    CollectSnoc(d => Contributions(d, table), ds, d);
    FoldAddConcat(seed, AllContributions(ds, table), Contributions(d, table));
  }

  /** The two additions of a footprint. */
  lemma FoldAddCharges(m: map<CloudName, Resource>, f: Footprint)
    ensures FoldAdd(m, Charges(f)) == AddToCloud(AddToCloud(m, f.deployCloud, f.deploy), f.vmCloud, f.vm)
  {
    var m1 := AddToCloud(m, f.deployCloud, f.deploy);
    var rest := [Contribution(f.vmCloud, f.vm)];
    assert Charges(f)[1..] == rest;
    assert FoldAdd(m, Charges(f)) == FoldAdd(m1, rest);
    assert rest[1..] == [];
    assert FoldAdd(m1, rest) == FoldAdd(AddToCloud(m1, f.vmCloud, f.vm), []);
  }

  /** The loop body on a declaration `main` charges: its two additions. */
  lemma TallyCharged(seed: map<CloudName, Resource>, ds: seq<Declaration>, i: nat,
                     table: map<LocalCloudVarName, CloudName>, f: Footprint)
    requires i < |ds|
    requires Contributions(ds[i], table) == Charges(f)
    ensures Tally(seed, ds[..i + 1], table) ==
            AddToCloud(AddToCloud(Tally(seed, ds[..i], table), f.deployCloud, f.deploy), f.vmCloud, f.vm)
  {
    assert ds[..i + 1] == ds[..i] + [ds[i]];
    TallySnoc(seed, ds[..i], ds[i], table);
    FoldAddCharges(Tally(seed, ds[..i], table), f);
  }

  /** The loop body on a declaration `main` does not charge. */
  lemma TallyUncharged(seed: map<CloudName, Resource>, ds: seq<Declaration>, i: nat,
                       table: map<LocalCloudVarName, CloudName>)
    requires i < |ds|
    requires Contributions(ds[i], table) == []
    ensures Tally(seed, ds[..i + 1], table) == Tally(seed, ds[..i], table)
  {
    assert ds[..i + 1] == ds[..i] + [ds[i]];
    TallySnoc(seed, ds[..i], ds[i], table);
  }

  /** The totals do not depend on the order in which the declarations appear. */
  lemma TallyPermutation(seed: map<CloudName, Resource>, ds: seq<Declaration>, es: seq<Declaration>,
                         table: map<LocalCloudVarName, CloudName>)
    requires multiset(ds) == multiset(es)
    ensures Tally(seed, ds, table) == Tally(seed, es, table)
  {
    CollectPermutation(d => Contributions(d, table), ds, es);
    FoldAddPermutation(seed, AllContributions(ds, table), AllContributions(es, table));
  }

  /** A skipped or unrecognised declaration changes nothing. */
  lemma IgnoredDeclaration(seed: map<CloudName, Resource>, ds: seq<Declaration>, d: Declaration,
                           table: map<LocalCloudVarName, CloudName>)
    requires Classify(d) == Skipped || Classify(d) == Unrecognised
    ensures Tally(seed, ds + [d], table) == Tally(seed, ds, table)
  {
    TallySnoc(seed, ds, d, table);
  }

  /**
    A runner without a clouds-yaml entry, or an image builder without a build
    flavor or user-name entry, still reaches `addResourceToClouds` twice with
    the empty cloud name: the totals gain an entry for `""` (at zero if it
    was new) and nothing else changes.
   */
  lemma RejectedApplicationAddsEmptyCloud(seed: map<CloudName, Resource>, ds: seq<Declaration>, d: Declaration,
                                          table: map<LocalCloudVarName, CloudName>)
    requires Readable(d)
    requires || (Classify(d) == Runner && !RunnerConfigured(d))
             || (Classify(d) == ImageBuilder && !BuilderConfigured(d))
    ensures var before, after := Tally(seed, ds, table), Tally(seed, ds + [d], table);
            && after.Keys == before.Keys + {""}
            && after[""] == Total(before, "")
            && forall c :: c in before && c != "" ==> after[c] == before[c]
  {
    TallySnoc(seed, ds, d, table);
    var before := Tally(seed, ds, table);
    assert Contributions(d, table) == Charges(NoFootprint);
    FoldAddCharges(before, NoFootprint);
  }

  /**
    `main` without its input and output: seed the totals with `parseClouds`,
    build the variable table, then add each declaration's footprint in turn.
   */
  method Estimate(config: Config, readUser: string -> string)
    returns (table: map<LocalCloudVarName, CloudName>, totals: map<CloudName, Resource>)
    requires UserNamesTyped(config.locals) && CloudsYamlTyped(config.locals)
    requires AllReadable(config.resources)
    ensures ResolvesVariables(config.locals, ParseClouds(config.locals).Keys, readUser, table)
    ensures totals == Tally(ParseClouds(config.locals), config.resources, table)
    ensures totals.Keys == {DefaultCloud} + UserNameValues(config.locals) + CloudsOf(AllContributions(config.resources, table))
  {
    var seed := ParseClouds(config.locals);
    table := ParseLocalVarToClouds(config.locals, seed.Keys, readUser);
    totals := seed;
    var ds := config.resources;
    assert ds[..0] == [];
    for i := 0 to |ds|
      invariant totals == Tally(seed, ds[..i], table)
    {
      var d := ds[i];
      match Classify(d)
      case ImageBuilder =>
        var f := ParseImageBuilder(d, table);
        TallyCharged(seed, ds, i, table, f);
        totals := AddToCloud(totals, f.deployCloud, f.deploy);
        totals := AddToCloud(totals, f.vmCloud, f.vm);
      case Runner =>
        var f := ParseRunner(d, table);
        TallyCharged(seed, ds, i, table, f);
        totals := AddToCloud(totals, f.deployCloud, f.deploy);
        totals := AddToCloud(totals, f.vmCloud, f.vm);
      case _ =>
        TallyUncharged(seed, ds, i, table);
    }
    assert ds[..|ds|] == ds;
    TallyKeys(seed, ds, table);
  }
}

=== FILE: flavors.dfy ===
/**
  `parseFlavor`: an OpenStack flavor name such as `"cpu4-ram16-disk200"` read
  into a `Resource`.  The name is split at every `-`; a segment that contains
  one of the markers `cpu`, `ram` or `disk` anywhere has every occurrence of
  that marker deleted and the rest parsed with `Atoi`, and the result (0 when
  it does not parse) is assigned to the field.  Later segments overwrite
  earlier ones, and nothing is scaled.
 */
module Flavors {
  import opened Strings
  import opened Strconv
  import opened Resources

  const CpuMarker := "cpu"
  const RamMarker := "ram"
  const DiskMarker := "disk"

  predicate IsMarker(m: string) {
    m == CpuMarker || m == RamMarker || m == DiskMarker
  }

  /** What a segment holding `marker` sets the field to. */
  function MarkerValue(seg: string, marker: string): int
    requires marker != []
  {
    AtoiOrZero(RemoveAll(seg, marker))
  }

  /** One pass of the loop body: each marker the segment holds overwrites its field. */
  function ApplySegment(acc: Resource, seg: string): Resource {
    Resource(
      if Contains(seg, CpuMarker) then MarkerValue(seg, CpuMarker) else acc.cpu,
      if Contains(seg, RamMarker) then MarkerValue(seg, RamMarker) else acc.mem,
      if Contains(seg, DiskMarker) then MarkerValue(seg, DiskMarker) else acc.disk)
  }

  /** Segment `i` holds `marker` and no later segment does. */
  ghost predicate IsLastWith(segs: seq<string>, marker: string, i: int) {
    && 0 <= i < |segs|
    && Contains(segs[i], marker)
    && forall j :: i < j < |segs| ==> !Contains(segs[j], marker)
  }

  /** No segment holds `marker`. */
  ghost predicate NoneWith(segs: seq<string>, marker: string) {
    forall i :: 0 <= i < |segs| ==> !Contains(segs[i], marker)
  }

  /**
    The value a field must end with: that of the last segment holding the
    marker, or 0 when no segment holds it.
   */
  ghost predicate SetByLast(segs: seq<string>, marker: string, v: int)
    requires marker != []
  {
    && (NoneWith(segs, marker) ==> v == 0)
    && forall i :: IsLastWith(segs, marker, i) ==> v == MarkerValue(segs[i], marker)
  }

  /** The loop of `parseFlavor` over already-split segments, from the zero value. */
  function FlavorOf(segs: seq<string>): (r: Resource)
    ensures SetByLast(segs, CpuMarker, r.cpu)
    ensures SetByLast(segs, RamMarker, r.mem)
    ensures SetByLast(segs, DiskMarker, r.disk)
    decreases |segs|
  {
    if segs == [] then Zero
    else
      var prev := FlavorOf(segs[..|segs| - 1]);
      SetByLastStep(segs, CpuMarker, prev.cpu);
      SetByLastStep(segs, RamMarker, prev.mem);
      SetByLastStep(segs, DiskMarker, prev.disk);
      ApplySegment(prev, segs[|segs| - 1])
  }

  /** Appending a segment keeps a field set by the last segment holding its marker. */
  lemma SetByLastStep(segs: seq<string>, marker: string, v: int)
    requires marker != [] && |segs| > 0
    requires SetByLast(segs[..|segs| - 1], marker, v)
    ensures SetByLast(segs, marker,
                      if Contains(segs[|segs| - 1], marker) then MarkerValue(segs[|segs| - 1], marker) else v)
  {
    var init, n := segs[..|segs| - 1], |segs| - 1;
    if Contains(segs[n], marker) {
      forall i | IsLastWith(segs, marker, i) ensures i == n {
      }
    } else {
      if NoneWith(segs, marker) {
        forall i | 0 <= i < |init| ensures !Contains(init[i], marker) {
          assert init[i] == segs[i];
        }
        assert NoneWith(init, marker);
      }
      forall i | IsLastWith(segs, marker, i) ensures v == MarkerValue(segs[i], marker) {
        assert init[i] == segs[i];
        forall j | i < j < |init| ensures !Contains(init[j], marker) {
          assert init[j] == segs[j];
        }
        assert IsLastWith(init, marker, i);
      }
    }
  }

  /** `parseFlavor(s)`. */
  function ParseFlavor(s: string): (r: Resource)
    ensures SetByLast(Split(s, '-'), CpuMarker, r.cpu)
    ensures SetByLast(Split(s, '-'), RamMarker, r.mem)
    ensures SetByLast(Split(s, '-'), DiskMarker, r.disk)
  {
    FlavorOf(Split(s, '-'))
  }

  /**
    A segment holding two different markers zeroes both fields: deleting one
    marker leaves the other's letters behind, and `Atoi` rejects letters.
   */
  lemma TwoMarkersZeroBoth(seg: string, m1: string, m2: string)
    requires IsMarker(m1) && IsMarker(m2) && m1 != m2
    requires Contains(seg, m1) && Contains(seg, m2)
    ensures MarkerValue(seg, m1) == 0 && MarkerValue(seg, m2) == 0
  {
    MarkerLeftover(seg, m1, m2);
    MarkerLeftover(seg, m2, m1);
  }

  /** Deleting one marker from a segment that holds another leaves text `Atoi` rejects. */
  lemma MarkerLeftover(seg: string, m1: string, m2: string)
    requires IsMarker(m1) && IsMarker(m2) && m1 != m2
    requires Contains(seg, m2)
    ensures MarkerValue(seg, m1) == 0
  {
    var c := m2[0];
    assert c in m2;
    assert c !in m1 && !IsDigit(c) && !IsSign(c);
    ContainsChar(seg, m2, c);
    AtoiRejectsChar(RemoveAll(seg, m1), c);
  }

  /** The flavor name a cloud operator would write for a resource. */
  function FormatFlavor(r: Resource): string {
    CpuMarker + Show(r.cpu) + "-" + RamMarker + Show(r.mem) + "-" + DiskMarker + Show(r.disk)
  }

  /** A marker followed by the digits of a natural number reads back as that number. */
  lemma MarkerDigits(marker: string, n: int)
    requires IsMarker(marker) && n >= 0
    ensures MarkerValue(marker + Show(n), marker) == n
  {
    assert Show(n) == ShowNat(n);
    assert !IsDigit(marker[0]);
    NotContainsMissingChar(Show(n), marker, marker[0]);
    RemoveLeadingMarker(marker, Show(n));
    AtoiShow(n);
  }

  /** The segments of a written flavor name. */
  function FlavorSegments(r: Resource): seq<string> {
    [CpuMarker + Show(r.cpu), RamMarker + Show(r.mem), DiskMarker + Show(r.disk)]
  }

  /** A written flavor name splits back into its three segments. */
  lemma SplitFormatFlavor(r: Resource)
    requires r.cpu >= 0 && r.mem >= 0 && r.disk >= 0
    ensures Split(FormatFlavor(r), '-') == FlavorSegments(r)
  {
    var segs := FlavorSegments(r);
    var a, b, c := segs[0], segs[1], segs[2];
    ShowChars(r.cpu);
    ShowChars(r.mem);
    ShowChars(r.disk);
    assert Join(segs, '-') == FormatFlavor(r) by {
      assert segs[1..][1..] == [c];
      assert segs[1..] == [b, c];
      assert Join([b, c], '-') == b + ['-'] + c;
      assert Join(segs, '-') == a + ['-'] + (b + ['-'] + c);
    }
    SplitJoin(segs, '-');
  }

  /** In a written flavor name each marker is held by its own segment only. */
  lemma FlavorSegmentsMarkers(r: Resource)
    ensures IsLastWith(FlavorSegments(r), CpuMarker, 0)
    ensures IsLastWith(FlavorSegments(r), RamMarker, 1)
    ensures IsLastWith(FlavorSegments(r), DiskMarker, 2)
  {
    var segs := FlavorSegments(r);
    var a, b, c := segs[0], segs[1], segs[2];
    ShowChars(r.cpu);
    ShowChars(r.mem);
    ShowChars(r.disk);
    // Each segment's first letter occurs in no other segment.
    NotContainsMissingChar(b, CpuMarker, 'c');
    NotContainsMissingChar(c, CpuMarker, 'c');
    NotContainsMissingChar(c, RamMarker, 'r');
    assert IsPrefix(CpuMarker, a) && IsPrefix(RamMarker, b) && IsPrefix(DiskMarker, c);
  }

  /** Parsing the written flavor name gives back any resource with non-negative fields. */
  lemma ParseFormatFlavor(r: Resource)
    requires r.cpu >= 0 && r.mem >= 0 && r.disk >= 0
    ensures ParseFlavor(FormatFlavor(r)) == r
  {
    SplitFormatFlavor(r);
    FlavorSegmentsMarkers(r);
    MarkerDigits(CpuMarker, r.cpu);
    MarkerDigits(RamMarker, r.mem);
    MarkerDigits(DiskMarker, r.disk);
  }
}

=== FILE: hcl.dfy ===
/**
  The shape of what the Terraform parser hands to the calculator: `locals`
  blocks and declared resources, each a map from attribute name to a value.
  Only the distinction between text, nested blocks and anything else matters
  to the calculator, because it type-asserts attributes to `string` or to
  `map[string]any`.
 */
module Hcl {

  datatype Value =
    | Text(text: string)
    | Block(entries: map<string, Value>)
    | Other

  /** A `resource "<kind>" "<name>" { ... }` declaration. */
  datatype Declaration = Declaration(kind: string, name: string, attributes: map<string, Value>)

  /** The attributes of one `locals { ... }` block. */
  type LocalBlock = map<string, Value>

  datatype Config = Config(locals: seq<LocalBlock>, resources: seq<Declaration>)

  /** `attrs[key].(string)` succeeds. */
  predicate HasText(attrs: map<string, Value>, key: string) {
    key in attrs && attrs[key].Text?
  }
}

=== FILE: locals.dfy ===
/**
  The tables built from the `locals` blocks before any application is read:
  `parseClouds` (the initial per-cloud totals), `getLocalUserNameVarToCloudNameMap`
  (user-name variable to cloud) and `parseLocalVarToClouds` (every variable an
  application may reference to the cloud it stands for).

  Go visits map entries in an unspecified order.  Where that order decides
  the outcome (which matching cloud a user-name variable gets), the model
  picks with `:|` and its contract promises only "some matching cloud".
 */
module Locals {
  import opened Strings
  import opened Resources
  import opened Hcl

  type LocalCloudVarName = string

  /** The cloud every charm deployment is charged to, present in the table from the start. */
  const DefaultCloud: CloudName := "DEFAULT"

  const UserNameMarker := "user_name"
  const CloudsYamlMarker := "clouds_yaml"
  const LocalPrefix := "local."

  predicate IsUserNameVar(k: string) {
    Contains(k, UserNameMarker)
  }

  predicate IsCloudsYamlVar(k: string) {
    Contains(k, CloudsYamlMarker)
  }

  /** Every user-name variable holds text (the `val.(string)` assertions). */
  predicate UserNamesTyped(locals: seq<LocalBlock>) {
    forall i, k :: 0 <= i < |locals| && k in locals[i] && IsUserNameVar(k) ==> locals[i][k].Text?
  }

  /** Every clouds-yaml variable holds text. */
  predicate CloudsYamlTyped(locals: seq<LocalBlock>) {
    forall i, k :: 0 <= i < |locals| && k in locals[i] && IsCloudsYamlVar(k) ==> locals[i][k].Text?
  }

  /** The values of all user-name variables: these name the clouds. */
  ghost function UserNameValues(locals: seq<LocalBlock>): set<CloudName> {
    set i, k | 0 <= i < |locals| && k in locals[i] && IsUserNameVar(k) && locals[i][k].Text? :: locals[i][k].text
  }

  /** The user-name values of one block. */
  function BlockUserNames(b: LocalBlock): set<CloudName> {
    set k | k in b && IsUserNameVar(k) && b[k].Text? :: b[k].text
  }

  /** The user-name values of one block, each with a zero total. */
  function BlockClouds(b: LocalBlock): map<CloudName, Resource> {
    map v | v in BlockUserNames(b) :: Zero
  }

  /**
    `parseClouds`: a zero total for `DEFAULT` and for every cloud named by a
    user-name variable.
   */
  function ParseClouds(locals: seq<LocalBlock>): (clouds: map<CloudName, Resource>)
    requires UserNamesTyped(locals)
    ensures clouds.Keys == {DefaultCloud} + UserNameValues(locals)
    ensures forall c :: c in clouds ==> clouds[c] == Zero
    decreases |locals|
  {
    if locals == [] then map[DefaultCloud := Zero]
    else
      var init := locals[..|locals| - 1];
      assert UserNameValues(locals) == UserNameValues(init) + BlockClouds(locals[|locals| - 1]).Keys by {
        UserNameValuesSnoc(locals);
      }
      ParseClouds(init) + BlockClouds(locals[|locals| - 1])
  }

  /** The user-name values of a list of blocks: those of all but the last, and the last's. */
  lemma UserNameValuesSnoc(locals: seq<LocalBlock>)
    requires |locals| > 0
    ensures UserNameValues(locals) ==
            UserNameValues(locals[..|locals| - 1]) + BlockClouds(locals[|locals| - 1]).Keys
  {
    var init, n := locals[..|locals| - 1], |locals| - 1;
    forall v | v in UserNameValues(locals)
      ensures v in UserNameValues(init) + BlockClouds(locals[n]).Keys
    {
      var i, k :| 0 <= i < |locals| && k in locals[i] && IsUserNameVar(k) && locals[i][k].Text? && locals[i][k].text == v;
      if i < n {
        assert init[i] == locals[i];
      }
    }
    forall v | v in UserNameValues(init) ensures v in UserNameValues(locals) {
      var i, k :| 0 <= i < |init| && k in init[i] && IsUserNameVar(k) && init[i][k].Text? && init[i][k].text == v;
      assert init[i] == locals[i];
    }
  }

  /** The clouds whose name occurs in the value of user-name variable `k` of block `b`. */
  ghost function MatchingClouds(b: LocalBlock, clouds: set<CloudName>, k: string): set<CloudName> {
    if k in b && IsUserNameVar(k) && b[k].Text? then set c | c in clouds && Contains(b[k].text, c) else {}
  }

  /**
    The clouds variable `k` may end up mapped to after the first `n` blocks:
    those matched in the last of them where anything matched, or none.
   */
  ghost function Candidates(locals: seq<LocalBlock>, clouds: set<CloudName>, n: nat, k: string): set<CloudName>
    requires n <= |locals|
  {
    if n == 0 then {}
    else
      var here := MatchingClouds(locals[n - 1], clouds, k);
      if here != {} then here else Candidates(locals, clouds, n - 1, k)
  }

  /** A block that matches keeps the variable resolvable in every later prefix. */
  lemma {:induction false} CandidatesPersist(locals: seq<LocalBlock>, clouds: set<CloudName>, n: nat, i: nat, k: string)
    requires i < n <= |locals|
    requires MatchingClouds(locals[i], clouds, k) != {}
    ensures Candidates(locals, clouds, n, k) != {}
    decreases n
  {
    if i < n - 1 && MatchingClouds(locals[n - 1], clouds, k) == {} {
      CandidatesPersist(locals, clouds, n - 1, i, k);
    }
  }

  /**
    The inner loop of `getLocalUserNameVarToCloudNameMap`: over the clouds in
    any order, remembering the last one whose name occurs in `v`; that is,
    some matching cloud when there is one.
   */
  method PickCloud(v: string, clouds: set<CloudName>) returns (found: bool, c: CloudName)
    ensures found <==> exists d :: d in clouds && Contains(v, d)
    ensures found ==> c in clouds && Contains(v, c)
  {
    found, c := false, "";
    var rest := clouds;
    while rest != {}
      invariant rest <= clouds
      invariant found ==> c in clouds && Contains(v, c)
      invariant !found ==> forall d :: d in clouds - rest ==> !Contains(v, d)
      decreases rest
    {
      var d :| d in rest;
      if Contains(v, d) {
        found, c := true, d;
      }
      rest := rest - {d};
    }
  }

  /** One block of `getLocalUserNameVarToCloudNameMap`, visited in any key order. */
  method ResolveBlock(b: LocalBlock, clouds: set<CloudName>, t: map<LocalCloudVarName, CloudName>)
    returns (t': map<LocalCloudVarName, CloudName>)
    requires forall k :: k in b && IsUserNameVar(k) ==> b[k].Text?
    ensures forall k :: k in t' <==> k in t || MatchingClouds(b, clouds, k) != {}
    ensures forall k :: k in t' && MatchingClouds(b, clouds, k) != {} ==> t'[k] in MatchingClouds(b, clouds, k)
    ensures forall k :: k in t' && MatchingClouds(b, clouds, k) == {} ==> t'[k] == t[k]
  {
    t' := t;
    var keys := b.Keys;
    while keys != {}
      invariant keys <= b.Keys
      invariant forall k :: k in t' <==> k in t || (k !in keys && MatchingClouds(b, clouds, k) != {})
      invariant forall k :: k in t' && k !in keys && MatchingClouds(b, clouds, k) != {} ==> t'[k] in MatchingClouds(b, clouds, k)
      invariant forall k :: k in t' && (k in keys || MatchingClouds(b, clouds, k) == {}) ==> t'[k] == t[k]
      decreases keys
    {
      var k :| k in keys;
      if IsUserNameVar(k) {
        var found, c := PickCloud(b[k].text, clouds);
        if found {
          assert c in MatchingClouds(b, clouds, k);
          t' := t'[k := c];
        } else {
          assert MatchingClouds(b, clouds, k) == {};
        }
      } else {
        assert MatchingClouds(b, clouds, k) == {};
      }
      keys := keys - {k};
    }
  }

  /**
    `getLocalUserNameVarToCloudNameMap`: each user-name variable whose value
    contains the name of some cloud is mapped to one such cloud; across
    blocks, the last block where it matched decides.
   */
  method UserNameTable(locals: seq<LocalBlock>, clouds: set<CloudName>) returns (t: map<LocalCloudVarName, CloudName>)
    requires UserNamesTyped(locals)
    ensures forall k :: k in t <==> Candidates(locals, clouds, |locals|, k) != {}
    ensures forall k :: k in t ==> t[k] in Candidates(locals, clouds, |locals|, k)
  {
    t := map[];
    for n := 0 to |locals|
      invariant forall k :: k in t <==> Candidates(locals, clouds, n, k) != {}
      invariant forall k :: k in t ==> t[k] in Candidates(locals, clouds, n, k)
    {
      t := ResolveBlock(locals[n], clouds, t);
    }
  }

  /**
    With the clouds `parseClouds` seeds, every user-name variable is resolved,
    since its own value names a cloud.
   */
  lemma EveryUserNameResolved(locals: seq<LocalBlock>, i: nat, k: string)
    requires UserNamesTyped(locals)
    requires i < |locals| && k in locals[i] && IsUserNameVar(k)
    ensures Candidates(locals, ParseClouds(locals).Keys, |locals|, k) != {}
  {
    var clouds := ParseClouds(locals).Keys;
    var v := locals[i][k].text;
    assert v in UserNameValues(locals);
    ContainsSelf(v);
    assert v in MatchingClouds(locals[i], clouds, k);
    CandidatesPersist(locals, clouds, |locals|, i, k);
  }

  /** `getCloudsYamlUsername`, given the YAML reading as `readUser`: its username without `local.`. */
  function CloudsYamlUsername(readUser: string -> string, doc: string): string {
    RemoveAll(readUser(doc), LocalPrefix)
  }

  /** Block `i` is the last to bind `k`. */
  ghost predicate IsLastBinding(locals: seq<LocalBlock>, i: int, k: string) {
    && 0 <= i < |locals|
    && k in locals[i]
    && forall j :: i < j < |locals| ==> k !in locals[j]
  }

  /** The clouds-yaml variables of all blocks. */
  ghost function CloudsYamlVars(locals: seq<LocalBlock>): set<LocalCloudVarName> {
    set i, k | 0 <= i < |locals| && k in locals[i] && IsCloudsYamlVar(k) :: k
  }

  /** Where a username points: through the user-name table, or to itself. */
  function ResolveUsername(userTable: map<LocalCloudVarName, CloudName>, username: string): CloudName {
    if username in userTable then userTable[username] else username
  }

  /**
    `m` maps every clouds-yaml variable of the blocks, and each to where the
    username of its last binding points.
   */
  ghost predicate EntriesFor(locals: seq<LocalBlock>, userTable: map<LocalCloudVarName, CloudName>,
                             readUser: string -> string, m: map<LocalCloudVarName, CloudName>)
    requires CloudsYamlTyped(locals)
  {
    && m.Keys == CloudsYamlVars(locals)
    && forall i, k :: IsLastBinding(locals, i, k) && IsCloudsYamlVar(k) ==>
         k in m && m[k] == ResolveUsername(userTable, CloudsYamlUsername(readUser, locals[i][k].text))
  }

  /** The first loop of `parseLocalVarToClouds`, one block at a time. */
  function CloudsYamlEntries(locals: seq<LocalBlock>, userTable: map<LocalCloudVarName, CloudName>, readUser: string -> string)
    : (m: map<LocalCloudVarName, CloudName>)
    requires CloudsYamlTyped(locals)
    ensures EntriesFor(locals, userTable, readUser, m)
    decreases |locals|
  {
    if locals == [] then map[]
    else
      var init, b := locals[..|locals| - 1], locals[|locals| - 1];
      CloudsYamlEntriesStep(locals);
      var prev := CloudsYamlEntries(init, userTable, readUser);
      var here := BlockEntries(b, userTable, readUser);
      EntriesForSnoc(locals, userTable, readUser, prev, here);
      prev + here
  }

  /** Entries for all but the last block, overridden by those of the last block, are entries for all. */
  lemma EntriesForSnoc(locals: seq<LocalBlock>, userTable: map<LocalCloudVarName, CloudName>, readUser: string -> string,
                       prev: map<LocalCloudVarName, CloudName>, here: map<LocalCloudVarName, CloudName>)
    requires |locals| > 0 && CloudsYamlTyped(locals)
    requires CloudsYamlTyped(locals[..|locals| - 1])
    requires EntriesFor(locals[..|locals| - 1], userTable, readUser, prev)
    requires here == BlockEntries(locals[|locals| - 1], userTable, readUser)
    ensures EntriesFor(locals, userTable, readUser, prev + here)
  {
    var init, n := locals[..|locals| - 1], |locals| - 1;
    CloudsYamlEntriesStep(locals);
    forall i, k | IsLastBinding(locals, i, k) && IsCloudsYamlVar(k)
      ensures k in prev + here
      ensures (prev + here)[k] == ResolveUsername(userTable, CloudsYamlUsername(readUser, locals[i][k].text))
    {
      if k !in locals[n] {
        assert IsLastBinding(init, i, k);
        assert init[i] == locals[i];
      }
    }
  }

  /** The clouds-yaml variables of one block, each resolved. */
  function BlockEntries(b: LocalBlock, userTable: map<LocalCloudVarName, CloudName>, readUser: string -> string)
    : (m: map<LocalCloudVarName, CloudName>)
    requires forall k :: k in b && IsCloudsYamlVar(k) ==> b[k].Text?
    ensures m.Keys == set k | k in b && IsCloudsYamlVar(k)
    ensures forall k :: k in m ==> m[k] == ResolveUsername(userTable, CloudsYamlUsername(readUser, b[k].text))
  {
    map k | k in b && IsCloudsYamlVar(k) :: ResolveUsername(userTable, CloudsYamlUsername(readUser, b[k].text))
  }

  /** How the variables and last bindings of a list of blocks relate to those without its last block. */
  lemma CloudsYamlEntriesStep(locals: seq<LocalBlock>)
    requires |locals| > 0
    ensures CloudsYamlTyped(locals) ==> CloudsYamlTyped(locals[..|locals| - 1])
    ensures CloudsYamlVars(locals) ==
            CloudsYamlVars(locals[..|locals| - 1]) + (set k | k in locals[|locals| - 1] && IsCloudsYamlVar(k))
    ensures forall i, k :: IsLastBinding(locals, i, k) && k !in locals[|locals| - 1] ==>
              IsLastBinding(locals[..|locals| - 1], i, k)
    ensures forall i, k :: IsLastBinding(locals, i, k) && k in locals[|locals| - 1] ==> i == |locals| - 1
  {
    var init, n := locals[..|locals| - 1], |locals| - 1;
    assert forall i :: 0 <= i < n ==> init[i] == locals[i];
    forall k | k in CloudsYamlVars(locals)
      ensures k in CloudsYamlVars(init) + (set k | k in locals[n] && IsCloudsYamlVar(k))
    {
      var i :| 0 <= i < |locals| && k in locals[i] && IsCloudsYamlVar(k);
      if i < n {
        assert k in init[i];
      }
    }
  }

  /**
    What `parseLocalVarToClouds` promises of its table: it holds the
    clouds-yaml variables and the resolved user-name variables; a user-name
    variable goes to a cloud matching it; a clouds-yaml variable that is not
    also one goes where its document's username points, through the
    user-name table when that username is a resolved variable (and then to
    the very cloud that variable itself is mapped to), else to the username
    itself.
   */
  ghost predicate ResolvesVariables(locals: seq<LocalBlock>, clouds: set<CloudName>, readUser: string -> string,
                                    table: map<LocalCloudVarName, CloudName>)
    requires CloudsYamlTyped(locals)
  {
    && (forall k :: k in table <==> k in CloudsYamlVars(locals) || Candidates(locals, clouds, |locals|, k) != {})
    && (forall k :: Candidates(locals, clouds, |locals|, k) != {} ==>
          k in table && table[k] in Candidates(locals, clouds, |locals|, k))
    && (forall i, k :: IsLastBinding(locals, i, k) && IsCloudsYamlVar(k) && Candidates(locals, clouds, |locals|, k) == {} ==>
          var u := CloudsYamlUsername(readUser, locals[i][k].text);
          && k in table
          && (Candidates(locals, clouds, |locals|, u) == {} ==> table[k] == u)
          && (Candidates(locals, clouds, |locals|, u) != {} ==> table[k] in Candidates(locals, clouds, |locals|, u))
          && (Candidates(locals, clouds, |locals|, u) != {} ==> u in table && table[k] == table[u]))
  }

  /**
    `parseLocalVarToClouds`: every clouds-yaml variable is mapped to where its
    document's username points, then every resolved user-name variable to its
    cloud (overriding, when a name is both).
   */
  method ParseLocalVarToClouds(locals: seq<LocalBlock>, clouds: set<CloudName>, readUser: string -> string)
    returns (table: map<LocalCloudVarName, CloudName>)
    requires UserNamesTyped(locals) && CloudsYamlTyped(locals)
    ensures ResolvesVariables(locals, clouds, readUser, table)
  {
    var userTable := UserNameTable(locals, clouds);
    table := CloudsYamlEntries(locals, userTable, readUser) + userTable;
  }
}

=== FILE: resources.dfy ===
/**
  The `Resource` triple of the calculator and the per-cloud accumulator that
  `addResourceToClouds` updates.  Fields are Go `int`s; overflow is not modelled.
 */
module Resources {

  /** Cores, memory and disk, in whatever units the parsed text used. */
  datatype Resource = Resource(cpu: int, mem: int, disk: int)

  type CloudName = string

  /** The Go zero value `Resource{}`. */
  const Zero := Resource(0, 0, 0)

  function Add(a: Resource, b: Resource): Resource {
    Resource(a.cpu + b.cpu, a.mem + b.mem, a.disk + b.disk)
  }

  /** Every field multiplied by `n` (the VM count of a runner). */
  function Scale(r: Resource, n: int): Resource {
    Resource(r.cpu * n, r.mem * n, r.disk * n)
  }

  /** The current total of `c`, or the zero value when `c` has no entry yet. */
  function Total(m: map<CloudName, Resource>, c: CloudName): Resource {
    if c in m then m[c] else Zero
  }

  /**
    `addResourceToClouds(m, c, r)`: the entry of `c` (created at zero when
    missing) grows by `r`; every other entry stays as it was.
   */
  function AddToCloud(m: map<CloudName, Resource>, c: CloudName, r: Resource): (m': map<CloudName, Resource>)
    ensures m'.Keys == m.Keys + {c}
    ensures m'[c].cpu == Total(m, c).cpu + r.cpu
    ensures m'[c].mem == Total(m, c).mem + r.mem
    ensures m'[c].disk == Total(m, c).disk + r.disk
    ensures forall k :: k in m && k != c ==> m'[k] == m[k]
  {
    m[c := Add(Total(m, c), r)]
  }

  /** Two additions commute, whichever clouds they touch. */
  lemma AddToCloudCommutes(m: map<CloudName, Resource>, c1: CloudName, r1: Resource, c2: CloudName, r2: Resource)
    ensures AddToCloud(AddToCloud(m, c1, r1), c2, r2) == AddToCloud(AddToCloud(m, c2, r2), c1, r1)
  {
    var t1, t2 := Total(m, c1), Total(m, c2);
    var m1, m2 := m[c1 := Add(t1, r1)], m[c2 := Add(t2, r2)];
    assert AddToCloud(m, c1, r1) == m1 && AddToCloud(m, c2, r2) == m2;
    if c1 == c2 {
      assert Total(m1, c2) == Add(t1, r1) && Total(m2, c1) == Add(t2, r2);
      assert Add(Add(t1, r1), r2) == Add(Add(t1, r2), r1);
    } else {
      assert Total(m1, c2) == t2 && Total(m2, c1) == t1;
      var a, b := m1[c2 := Add(t2, r2)], m2[c1 := Add(t1, r1)];
      assert a.Keys == b.Keys;
      assert forall k :: k in a ==> a[k] == b[k];
    }
  }

  /** One call of `addResourceToClouds`: the cloud and the resource it adds. */
  datatype Contribution = Contribution(cloud: CloudName, amount: Resource)

  /** A sequence of `addResourceToClouds` calls, applied left to right. */
  function FoldAdd(m: map<CloudName, Resource>, xs: seq<Contribution>): map<CloudName, Resource>
    decreases |xs|
  {
    if xs == [] then m
    else FoldAdd(AddToCloud(m, xs[0].cloud, xs[0].amount), xs[1..])
  }

  /** Two runs of additions one after the other are one run over both. */
  lemma {:induction false} FoldAddConcat(m: map<CloudName, Resource>, xs: seq<Contribution>, ys: seq<Contribution>)
    ensures FoldAdd(m, xs + ys) == FoldAdd(FoldAdd(m, xs), ys)
    decreases |xs|
  {
    if xs == [] {
      assert xs + ys == ys;
    } else {
      assert (xs + ys)[0] == xs[0];
      assert (xs + ys)[1..] == xs[1..] + ys;
      FoldAddConcat(AddToCloud(m, xs[0].cloud, xs[0].amount), xs[1..], ys);
    }
  }

  /** Clouds mentioned by a sequence of contributions. */
  function CloudsOf(xs: seq<Contribution>): set<CloudName> {
    set i | 0 <= i < |xs| :: xs[i].cloud
  }

  /** The accumulator only ever gains keys: those it had and those it was given. */
  lemma {:induction false} FoldAddKeys(m: map<CloudName, Resource>, xs: seq<Contribution>)
    ensures FoldAdd(m, xs).Keys == m.Keys + CloudsOf(xs)
    decreases |xs|
  {
    if xs != [] {
      FoldAddKeys(AddToCloud(m, xs[0].cloud, xs[0].amount), xs[1..]);
      assert CloudsOf(xs) == {xs[0].cloud} + CloudsOf(xs[1..]) by {
        forall c | c in CloudsOf(xs) ensures c in {xs[0].cloud} + CloudsOf(xs[1..]) {
          var i :| 0 <= i < |xs| && xs[i].cloud == c;
          if i > 0 {
            assert xs[1..][i - 1] == xs[i];
          }
        }
        forall c | c in CloudsOf(xs[1..]) ensures c in CloudsOf(xs) {
          var i :| 0 <= i < |xs[1..]| && xs[1..][i].cloud == c;
          assert xs[i + 1] == xs[1..][i];
        }
      }
    }
  }

  /** An addition buried anywhere in the sequence may be performed first instead. */
  lemma {:induction false} FoldAddMoveToFront(m: map<CloudName, Resource>, zs: seq<Contribution>, x: Contribution, ws: seq<Contribution>)
    ensures FoldAdd(m, zs + [x] + ws) == FoldAdd(AddToCloud(m, x.cloud, x.amount), zs + ws)
    decreases |zs|
  {
    if zs == [] {
      assert zs + [x] + ws == [x] + ws;
      assert ([x] + ws)[1..] == ws;
      assert zs + ws == ws;
    } else {
      var z := zs[0];
      assert (zs + [x] + ws)[0] == z;
      assert (zs + [x] + ws)[1..] == zs[1..] + [x] + ws;
      assert (zs + ws)[0] == z;
      assert (zs + ws)[1..] == zs[1..] + ws;
      FoldAddMoveToFront(AddToCloud(m, z.cloud, z.amount), zs[1..], x, ws);
      AddToCloudCommutes(m, z.cloud, z.amount, x.cloud, x.amount);
    }
  }

  /** Taking one element out of a sequence takes it out of its multiset. */
  lemma MultisetRemoveAt<T>(s: seq<T>, k: nat)
    requires k < |s|
    ensures s == s[..k] + [s[k]] + s[k + 1..]
    ensures multiset(s[..k] + s[k + 1..]) == multiset(s) - multiset{s[k]}
  {
    assert s == s[..k] + [s[k]] + s[k + 1..];
  }

  /** Final totals do not depend on the order of the additions. */
  lemma {:induction false} FoldAddPermutation(m: map<CloudName, Resource>, xs: seq<Contribution>, ys: seq<Contribution>)
    requires multiset(xs) == multiset(ys)
    ensures FoldAdd(m, xs) == FoldAdd(m, ys)
    decreases |xs|
  {
    if xs == [] {
      assert |ys| == |multiset(ys)| == 0;
    } else {
      var x := xs[0];
      assert x in multiset(ys);
      var k :| 0 <= k < |ys| && ys[k] == x;
      var rest := ys[..k] + ys[k + 1..];
      MultisetRemoveAt(xs, 0);
      MultisetRemoveAt(ys, k);
      assert xs[..0] + xs[1..] == xs[1..];
      assert multiset(xs[1..]) == multiset(rest);
      FoldAddPermutation(AddToCloud(m, x.cloud, x.amount), xs[1..], rest);
      FoldAddMoveToFront(m, ys[..k], x, ys[k + 1..]);
    }
  }

}

=== FILE: strconv.dfy ===
/**
  Go's `strconv.Atoi` on the inputs the calculator feeds it, and its inverse
  `Show`, the decimal text of an integer.  The calculator never writes
  numbers; `Show` serves the read-back lemmas.  Integers are unbounded: the
  64-bit range check of `Atoi` is not modelled.
 */
module Strconv {

  datatype Option<+T> = None | Some(value: T)

  predicate IsDigit(c: char) {
    '0' <= c <= '9'
  }

  predicate AllDigits(s: string) {
    forall i :: 0 <= i < |s| ==> IsDigit(s[i])
  }

  predicate IsSign(c: char) {
    c == '+' || c == '-'
  }

  /** The decimal value of a run of digits, most significant first. */
  function DigitsValue(s: string): nat
    requires AllDigits(s)
  {
    if s == [] then 0
    else DigitsValue(s[..|s| - 1]) * 10 + (s[|s| - 1] - '0') as int
  }

  /**
    `strconv.Atoi(s)`: an optional `+` or `-` followed by one or more decimal
    digits; anything else (the empty string, a lone sign, a unit letter, a
    blank) is an error, here `None`.
   */
  function Atoi(s: string): (r: Option<int>)
    ensures r.Some? <==> (|s| > 0 && AllDigits(s)) || (|s| > 1 && IsSign(s[0]) && AllDigits(s[1..]))
    ensures r.Some? && IsDigit(s[0]) ==> r.value >= 0
    ensures AllDigits(s) && s != [] ==> r.Some?
  {
    if |s| > 0 && IsSign(s[0]) then
      if |s| > 1 && AllDigits(s[1..]) then
        var v: int := DigitsValue(s[1..]);
        Some(if s[0] == '-' then -v else v)
      else None
    else if |s| > 0 && AllDigits(s) then Some(DigitsValue(s))
    else None
  }

  /** `Atoi`, with every error read as 0 (what each caller does with a failure it reports). */
  function AtoiOrZero(s: string): int {
    match Atoi(s)
    case Some(v) => v
    case None => 0
  }

  /** Any character other than a digit, past the first position, makes `Atoi` fail. */
  lemma AtoiRejects(s: string, i: nat)
    requires 0 < i < |s| && !IsDigit(s[i])
    ensures Atoi(s) == None
  {
  }

  /** Any non-digit, non-sign character anywhere makes `Atoi` fail. */
  lemma AtoiRejectsChar(s: string, c: char)
    requires c in s && !IsDigit(c) && !IsSign(c)
    ensures Atoi(s) == None
  {
    var i :| 0 <= i < |s| && s[i] == c;
    if i > 0 {
      AtoiRejects(s, i);
    }
  }

  /** The decimal text of a natural number, most significant digit first. */
  function ShowNat(n: nat): (s: string)
    ensures s != [] && AllDigits(s)
  {
    if n < 10 then ['0' + n as char]
    else ShowNat(n / 10) + ['0' + (n % 10) as char]
  }

  /** The decimal text of `n`: a leading `-` for negative numbers, then the digits. */
  function Show(n: int): (s: string)
    ensures |s| >= 1
  {
    if n < 0 then "-" + ShowNat(-n) else ShowNat(n)
  }

  /** Digits read back give the number they were written from. */
  lemma {:induction false} DigitsValueShowNat(n: nat)
    ensures DigitsValue(ShowNat(n)) == n
  {
    if n >= 10 {
      var s := ShowNat(n);
      assert s[..|s| - 1] == ShowNat(n / 10);
      DigitsValueShowNat(n / 10);
    }
  }

  /** `Atoi` inverts `Show` on every integer. */
  lemma AtoiShow(n: int)
    ensures Atoi(Show(n)) == Some(n)
  {
    DigitsValueShowNat(if n < 0 then -n else n);
    if n < 0 {
      assert Show(n)[1..] == ShowNat(-n);
    }
  }

  /** A leading zero does not change the value of a run of digits. */
  lemma {:induction false} DigitsZero(s: string)
    requires AllDigits(s)
    ensures AllDigits("0" + s) && DigitsValue("0" + s) == DigitsValue(s)
    decreases |s|
  {
    var t := "0" + s;
    assert AllDigits(t) by {
      forall i | 0 <= i < |t| ensures IsDigit(t[i]) {
        if i > 0 {
          assert t[i] == s[i - 1];
        }
      }
    }
    if s != [] {
      assert t[..|t| - 1] == "0" + s[..|s| - 1];
      assert t[|t| - 1] == s[|s| - 1];
      DigitsZero(s[..|s| - 1]);
    }
  }

  /**
    The value of every accepted text that `Show` does not write: a `+` sign
    reads as no sign, a `-` sign negates, and leading zeros are ignored.
    With `AtoiShow` this fixes the value `Atoi` gives every text it accepts.
   */
  lemma AtoiSignZeros(s: string)
    requires s != [] && AllDigits(s)
    ensures Atoi("+" + s) == Atoi(s)
    ensures Atoi("-" + s).Some? && Atoi("-" + s).value == -Atoi(s).value
    ensures Atoi("0" + s) == Atoi(s)
  {
    assert ("+" + s)[1..] == s;
    assert ("-" + s)[1..] == s;
    DigitsZero(s);
  }

  /** The text of an integer uses only digits and a leading minus sign. */
  lemma ShowChars(n: int)
    ensures forall c :: c in Show(n) ==> IsDigit(c) || c == '-'
  {
    var s := ShowNat(if n < 0 then -n else n);
    forall c | c in Show(n) ensures IsDigit(c) || c == '-' {
      if n >= 0 {
        assert c in s;
      } else if c != '-' {
        assert Show(n) == "-" + s;
        var i :| 0 <= i < |Show(n)| && Show(n)[i] == c;
        assert s[i - 1] == c;
      }
    }
  }
}

=== FILE: strings.dfy ===
/**
  The three operations of Go's `strings` package that the calculator relies on:
  `Split` with a one-character separator, `Contains`, and `ReplaceAll` with an
  empty replacement (here `RemoveAll`).  Strings are sequences of characters
  where Go works on bytes.  Every separator and marker used by the
  calculator is ASCII, and the remaining substring tests (a cloud name inside
  a user-name value) compare valid UTF-8 texts, where an occurrence of one
  encoding inside another always starts at a character boundary; so the
  byte-wise and the character-wise answers agree.
 */
module Strings {

  /** `p` occurs at the very start of `s`. */
  predicate IsPrefix(p: string, s: string) {
    |p| <= |s| && s[..|p|] == p
  }

  /** `strings.Contains(s, sub)`: `sub` occurs somewhere in `s`. */
  predicate Contains(s: string, sub: string)
    decreases |s|
  {
    IsPrefix(sub, s) || (|s| > 0 && Contains(s[1..], sub))
  }

  /** `sub` is the slice of `s` starting at position `i`. */
  predicate OccursAt(s: string, sub: string, i: int) {
    0 <= i <= |s| - |sub| && s[i..i + |sub|] == sub
  }

  /** `Contains` holds exactly when `sub` is the slice of `s` at some position. */
  lemma {:induction false} ContainsAtSomePosition(s: string, sub: string)
    ensures Contains(s, sub) <==> exists i :: OccursAt(s, sub, i)
    decreases |s|
  {
    if IsPrefix(sub, s) {
      assert OccursAt(s, sub, 0);
    } else if |s| == 0 {
    } else {
      ContainsAtSomePosition(s[1..], sub);
      var t := s[1..];
      if Contains(s, sub) {
        var i :| OccursAt(t, sub, i);
        assert s[i + 1..i + 1 + |sub|] == t[i..i + |sub|];
        assert OccursAt(s, sub, i + 1);
      } else {
        forall i | OccursAt(s, sub, i) ensures false {
          if i > 0 {
            assert i - 1 <= |t| - |sub|;
            var a, b := t[i - 1..i - 1 + |sub|], s[i..i + |sub|];
            assert forall j :: 0 <= j < |a| ==> a[j] == b[j];
            assert OccursAt(t, sub, i - 1);
          }
        }
      }
    }
  }

  /** An occurring substring is no longer than the string. */
  lemma {:induction false} ContainsLength(s: string, sub: string)
    ensures Contains(s, sub) ==> |sub| <= |s|
    decreases |s|
  {
    if !IsPrefix(sub, s) && |s| > 0 {
      ContainsLength(s[1..], sub);
    }
  }

  /** Every string contains itself. */
  lemma ContainsSelf(s: string)
    ensures Contains(s, s)
  {
  }

  /** Every character of an occurring substring is a character of the string. */
  lemma {:induction false} ContainsChar(s: string, sub: string, c: char)
    requires Contains(s, sub)
    requires c in sub
    ensures c in s
    decreases |s|
  {
    if IsPrefix(sub, s) {
      var k :| 0 <= k < |sub| && sub[k] == c;
      assert s[k] == c;
    } else {
      ContainsChar(s[1..], sub, c);
      var k :| 0 <= k < |s[1..]| && s[1..][k] == c;
      assert s[k + 1] == c;
    }
  }

  /** A string lacking one of `sub`'s characters cannot contain `sub`. */
  lemma NotContainsMissingChar(s: string, sub: string, c: char)
    requires c in sub && c !in s
    ensures !Contains(s, sub)
  {
    if Contains(s, sub) {
      ContainsChar(s, sub, c);
    }
  }

  /** An occurrence inside a suffix is an occurrence in the whole string. */
  lemma {:induction false} ContainsInSuffix(a: string, b: string, sub: string)
    requires Contains(b, sub)
    ensures Contains(a + b, sub)
    decreases |a|
  {
    if a == [] {
      assert a + b == b;
    } else {
      assert (a + b)[1..] == a[1..] + b;
      ContainsInSuffix(a[1..], b, sub);
    }
  }

  /** What occurs in a prefix occurs in the whole. */
  lemma {:induction false} ContainsInPrefix(a: string, b: string, sub: string)
    requires Contains(a, sub)
    ensures Contains(a + b, sub)
    decreases |a|
  {
    if IsPrefix(sub, a) {
      assert (a + b)[..|sub|] == a[..|sub|];
    } else {
      ContainsInPrefix(a[1..], b, sub);
      assert (a + b)[1..] == a[1..] + b;
    }
  }

  /** Occurrence is transitive: what occurs in a part of `s` occurs in `s`. */
  lemma {:induction false} ContainsTransitive(s: string, mid: string, sub: string)
    requires Contains(s, mid) && Contains(mid, sub)
    ensures Contains(s, sub)
    decreases |s|
  {
    if IsPrefix(mid, s) {
      assert s == mid + s[|mid|..];
      ContainsInPrefix(mid, s[|mid|..], sub);
    } else {
      ContainsTransitive(s[1..], mid, sub);
    }
  }

  /**
    `strings.ReplaceAll(s, pat, "")`: scanning left to right, every
    non-overlapping occurrence of `pat` is deleted.  Text that only becomes an
    occurrence after a deletion is kept, as in Go.
   */
  function RemoveAll(s: string, pat: string): (r: string)
    requires pat != []
    ensures |r| <= |s|
    ensures Contains(s, pat) ==> |r| <= |s| - |pat|
    ensures forall c :: c !in pat ==> (c in r <==> c in s)
    ensures !Contains(s, pat) ==> r == s
    decreases |s|
  {
    if |s| < |pat| then
      ContainsLength(s, pat);
      s
    else if s[..|pat|] == pat then RemoveAll(s[|pat|..], pat)
    else [s[0]] + RemoveAll(s[1..], pat)
  }

  /**
    A leading occurrence of the pattern is deleted and the rest is treated
    on its own; in particular `local.` followed by a name free of it gives
    back the name.
   */
  lemma RemoveLeadingMarker(pat: string, d: string)
    requires pat != []
    ensures RemoveAll(pat + d, pat) == RemoveAll(d, pat)
    ensures !Contains(d, pat) ==> RemoveAll(pat + d, pat) == d
  {
    assert (pat + d)[..|pat|] == pat;
    assert (pat + d)[|pat|..] == d;
  }

  /**
    The first occurrence of the pattern is deleted with everything before it
    kept, and the text after it is treated on its own.  With the case where
    the pattern does not occur, this fixes the result on every input: every
    non-overlapping occurrence, scanning left to right, is deleted.
   */
  lemma {:induction false} RemoveFirstOccurrence(a: string, pat: string, b: string)
    requires pat != []
    requires !Contains(a + pat[..|pat| - 1], pat)
    ensures RemoveAll(a + pat + b, pat) == a + RemoveAll(b, pat)
    decreases |a|
  {
    if a == [] {
      RemoveLeadingMarker(pat, b);
      assert a + pat + b == pat + b;
    } else {
      RemoveBeforeOccurrence(a, pat, b);
      RemoveFirstOccurrence(a[1..], pat, b);
      ConsConcat(a, RemoveAll(b, pat));
    }
  }

  /** Before the first occurrence, the leading character is kept and the scan moves on. */
  lemma RemoveBeforeOccurrence(a: string, pat: string, b: string)
    requires pat != [] && a != []
    requires !Contains(a + pat[..|pat| - 1], pat)
    ensures !Contains(a[1..] + pat[..|pat| - 1], pat)
    ensures RemoveAll(a + pat + b, pat) == [a[0]] + RemoveAll(a[1..] + pat + b, pat)
  {
    var s, front := a + pat + b, a + pat[..|pat| - 1];
    assert front[1..] == a[1..] + pat[..|pat| - 1];
    assert |pat| <= |front| && s[..|pat|] == front[..|pat|];
    RemoveAllSkip(s, pat);
    assert s[1..] == a[1..] + pat + b;
  }

  /** A non-empty text is its first character followed by the rest. */
  lemma ConsConcat(a: string, t: string)
    requires a != []
    ensures [a[0]] + (a[1..] + t) == a + t
  {
    assert a == [a[0]] + a[1..];
  }

  /** A text that does not start with the pattern keeps its first character. */
  lemma RemoveAllSkip(s: string, pat: string)
    requires pat != [] && |pat| <= |s| && s[..|pat|] != pat
    ensures RemoveAll(s, pat) == [s[0]] + RemoveAll(s[1..], pat)
  {
  }

  /** The inverse of `Split`: the parts glued back together with the separator. */
  function Join(parts: seq<string>, sep: char): string
    requires |parts| >= 1
  {
    if |parts| == 1 then parts[0] else parts[0] + [sep] + Join(parts[1..], sep)
  }

  /**
    `strings.Split(s, sep)` for a one-character separator: the maximal pieces
    between separators, in order; the empty string gives one empty piece.
   */
  function Split(s: string, sep: char): (parts: seq<string>)
    ensures |parts| >= 1
    ensures forall i :: 0 <= i < |parts| ==> sep !in parts[i]
    ensures sep !in s ==> parts == [s]
    ensures sep in s ==> |parts| >= 2
    decreases |s|
  {
    if s == [] then [[]]
    else
      var rest := Split(s[1..], sep);
      assert forall c :: c in s[1..] ==> c in s;
      if s[0] == sep then [[]] + rest
      else assert s == [s[0]] + s[1..]; [[s[0]] + rest[0]] + rest[1..]
  }

  /** Joining the parts of a split gives back the original string. */
  lemma {:induction false} JoinSplit(s: string, sep: char)
    ensures Join(Split(s, sep), sep) == s
    decreases |s|
  {
    if s != [] {
      JoinSplit(s[1..], sep);
      var rest := Split(s[1..], sep);
      if s[0] != sep && |rest| > 1 {
        assert ([[s[0]] + rest[0]] + rest[1..])[1..] == rest[1..];
        assert rest == [rest[0]] + rest[1..];
      }
    }
  }

  /** Joining two lists of parts is joining their joins with one more separator. */
  lemma {:induction false} JoinConcat(p: seq<string>, q: seq<string>, sep: char)
    requires |p| >= 1 && |q| >= 1
    ensures Join(p + q, sep) == Join(p, sep) + [sep] + Join(q, sep)
    decreases |p|
  {
    if |p| == 1 {
      assert (p + q)[1..] == q;
    } else {
      assert (p + q)[1..] == p[1..] + q;
      JoinConcat(p[1..], q, sep);
    }
  }

  /** Parts free of the separator are recovered exactly by splitting their join. */
  lemma {:induction false} SplitJoin(parts: seq<string>, sep: char)
    requires |parts| >= 1
    requires forall i :: 0 <= i < |parts| ==> sep !in parts[i]
    ensures Split(Join(parts, sep), sep) == parts
    decreases |Join(parts, sep)|, |parts[0]|
  {
    var s := Join(parts, sep);
    if |parts| == 1 {
    } else if parts[0] == [] {
      assert s == [sep] + Join(parts[1..], sep);
      assert s[1..] == Join(parts[1..], sep);
      SplitJoin(parts[1..], sep);
      assert [[]] + parts[1..] == parts;
    } else {
      var tail := [parts[0][1..]] + parts[1..];
      assert tail[1..] == parts[1..];
      assert s[1..] == Join(tail, sep);
      forall i | 0 <= i < |tail| ensures sep !in tail[i] {
        if i == 0 {
          assert forall c :: c in parts[0][1..] ==> c in parts[0];
        }
      }
      SplitJoin(tail, sep);
      assert parts[0] == [parts[0][0]] + parts[0][1..];
    }
  }

  /** Splitting at an explicit separator splits the two sides independently. */
  lemma {:induction false} SplitConcat(a: string, b: string, sep: char)
    ensures Split(a + [sep] + b, sep) == Split(a, sep) + Split(b, sep)
  {
    var p, q := Split(a, sep), Split(b, sep);
    JoinSplit(a, sep);
    JoinSplit(b, sep);
    JoinConcat(p, q, sep);
    assert Join(p + q, sep) == a + [sep] + b;
    var pq := p + q;
    forall i | 0 <= i < |pq| ensures sep !in pq[i] {
      if i < |p| {
        assert pq[i] == p[i];
      } else {
        assert pq[i] == q[i - |p|];
      }
    }
    SplitJoin(pq, sep);
  }
}
